=== FILE: README.md ===
# how-i-ate: a Dafny model of the review app's core

how-i-ate is a restaurant-review application. An Angular frontend shows
restaurants, their reviews and two leaderboards. An Express/Mongoose backend
stores restaurants, reviews and user accounts, and gates every write on the
caller's role. This project models both halves as pure functions over
immutable state and proves what each step promises.

- **Backend.** The database is three maps from ids to records (`Db`). Ids come
  from a counter and are never reused. Each route handler is a function from
  the database and the request to an `Outcome` and the database afterwards
  (`ReviewRoutes`, `RestaurantRoutes`, `AuthRoutes`). The invariant `Db.Valid`
  says four things:
  - every id was allocated;
  - every stored review passes the review schema (rating 1 to 5, a trimmed
    comment of 5 to 500 characters);
  - there is at most one review per (restaurant, user) pair;
  - no two users share an email or a username.

  Every handler that writes keeps `Db.Valid`.
- **Frontend.** Each page is a state record, and each handler is a function
  from state to state. A handler that sends a request also returns the request
  it sends. The modelled pages are the two leaderboards (`RankingsView`,
  `UserRankingsView`), the review form (`ReviewForm`), the settings page
  (`SettingsForm`), the superadmin user list (`UsersPanel`), the
  new-restaurant page (`RestaurantCreate`) and the superadmin route guard
  (`SuperadminGuard`). Rating labels and star strips are in `RatingDisplay`.
  The cuisine chips are in `Cuisines`.
- **Agreement.** `Agreement` relates the request a page sends to the check
  of the route that receives it, for the password reset, account creation,
  restaurant creation and review creation. The review page sends three sub-ratings (`serviceRating`,
  `priceRating`, `menuRating`), but the review route reads a single `rating`
  field. As written, the route therefore refuses every review the page
  submits (`Agreement.PageReviewLacksRating`). Each side is modelled as its
  own file states.

JavaScript behaviour is written out explicitly:
- truthiness (`Common.Truthy`, `Json.IsTruthy`);
- `String.prototype.trim` over the ECMAScript whitespace set (`Text.Trim`);
- `Math.round` (`RatingDisplay.Round`);
- `toFixed(1)` on quarter values (`RatingDisplay.FixedOneDecimal`);
- the default string `sort()` (`Text.Less`).

The clock is a `now` parameter. bcrypt's password comparison is a function
parameter of `Login`.

The display-name route checks the length of the *trimmed* name but stores the
name *as sent*. As a result, a name padded with spaces can be stored longer
than 50 characters (`AuthRoutes.PaddedNameStoredLong`). The user schema is not
part of this model, so whether it trims or caps the stored value is not known.
This is recorded as a property of the route, not as a defect.

## Model

| member | source | states |
|---|---|---|
| RatingDisplay.Round | frontend/src/app/utils/rating.utils.ts:11 | `Math.round` returns the integer within half a unit of x, with halves rounded up |
| RatingDisplay.Bucket | frontend/src/app/components/rankings/rankings.component.ts:58 | the rating lies within an eighth of its nearest quarter, `Bucket/4` |
| RatingDisplay.FormatRating | frontend/src/app/components/rankings/rankings.component.ts:57-66 | the label stands for the rating rounded to a quarter; it is "w+" exactly when the quarter remainder is .25 and "n-" exactly when it is .75; w is the floor and n is the floor plus one |
| RatingDisplay.SameLabelIffSameBucket | frontend/src/app/components/rankings/rankings.component.ts:57-66 | two ratings get the same label if and only if they round to the same quarter |
| RatingDisplay.LabelIsClose | frontend/src/app/components/rankings/rankings.component.ts:57-66 | the labelled value is never more than an eighth away from the rating |
| RatingDisplay.FormatRatingText | frontend/src/app/components/rankings/rankings.component.ts:57-66 | the text ends in '+', in '-', or in a digit, exactly for remainders .25, .75, and whole or half values |
| RatingDisplay.FixedOneDecimal | frontend/src/app/components/rankings/rankings.component.ts:65 | `toFixed(1)` of a tenths value contains a point and ends in a digit |
| RatingDisplay.FixedOneDecimalReadsBack | frontend/src/app/components/rankings/rankings.component.ts:65 | the text is an optional minus sign exactly for negative values, whole digits, a point and one digit, and reading it back gives the tenths value |
| RatingDisplay.FormatRatingExamples | frontend/src/app/components/rankings/rankings.component.ts:57-66 | 4.0 shows as "4.0", 4.25 as "4+", 4.75 as "5-" and 4.5 as "4.5" |
| RatingDisplay.StarArray | frontend/src/app/utils/rating.utils.ts:10-12 | five cells, each 0 or 1; cell i is 1 if and only if i is below the rounded rating; filled cells come first; the number of filled cells is the rounded rating clamped to 0..5 |
| RatingDisplay.WidgetStarArray | frontend/src/app/components/ranking-widget/ranking-widget.component.ts:53-55 | the widget's copy of the strip builder returns exactly the shared utility's strip |
| RatingDisplay.CountFilledPrefix | frontend/src/app/utils/rating.utils.ts:11 | a strip with k leading ones and zeros after them holds k filled stars |
| Cuisines.Toggle | frontend/src/app/components/rankings/rankings.component.ts:73-74 | toggling flips membership of the chip and leaves every other chip as it was |
| Cuisines.ToggleTwice | frontend/src/app/components/user-rankings/user-rankings.component.ts:87-92 | toggling the same chip twice restores the set |
| Cuisines.InsertSorted | frontend/src/app/components/rankings/rankings.component.ts:35-39 | adding a cuisine to the sorted distinct list keeps it strictly sorted and adds exactly that cuisine |
| Cuisines.CuisineList | frontend/src/app/components/rankings/rankings.component.ts:35-39 | the chip list is strictly sorted in `sort()` order and holds exactly the cuisines some entry names |
| Cuisines.CuisineListDistinct | frontend/src/app/components/user-rankings/user-rankings.component.ts:56-60 | the chip list never repeats a cuisine |
| Cuisines.StrictlySortedDistinct | frontend/src/app/components/rankings/rankings.component.ts:39 | a strictly sorted list has no repeated element |
| RankingsView.ApplyFilters | frontend/src/app/components/rankings/rankings.component.ts:83-94 | the shown list is an in-order sub-list of the leaderboard holding only entries the chips admit, as many as the leaderboard has (repeats included), so it is the filtered list; `totalCount` is its length; with no chip selected it is the whole list |
| RankingsView.FilterConsistentUnique | frontend/src/app/components/rankings/rankings.component.ts:83-94 | any shown list consistent with the entries and chips is `filter` of the entries by the chips, and `totalCount` is the number of admitted entries |
| RankingsView.FilteredWithChips | frontend/src/app/components/rankings/rankings.component.ts:91 | with chips selected, an entry is shown if and only if it names one of the selected cuisines |
| RankingsView.ToggleCuisine | frontend/src/app/components/rankings/rankings.component.ts:72-77 | the chip flips, the others stay, and the shown list and count are exactly the filtered list for the new chips |
| RankingsView.ToggleCuisineTwice | frontend/src/app/components/rankings/rankings.component.ts:72-81 | pressing a chip twice restores its reading and the shown list |
| RankingsView.IsCuisineIncluded | frontend/src/app/components/rankings/rankings.component.ts:79-81 | a chip reads as selected exactly when it is in the selection; `ToggleCuisineTwice` states how it flips |
| RankingsView.ToggleFilters | frontend/src/app/components/rankings/rankings.component.ts:68-70 | only the panel's visibility changes, and it flips |
| RankingsView.OnRankingsLoaded | frontend/src/app/components/rankings/rankings.component.ts:33-41 | the list is stored; the chips offered are the sorted distinct cuisines of the list; the shown list and count are exactly the filtered list for the current chips; loading stops; every other field (selected chips, open filter panel, a previous error message) is kept |
| RankingsView.OnRankingsError | frontend/src/app/components/rankings/rankings.component.ts:43-49 | a 404 shows "Nessuna classifica disponibile", any other failure the generic message; loading stops |
| UserRankingsView.OnRouteParams | frontend/src/app/components/user-rankings/user-rankings.component.ts:36-52 | with a user id the page records it and the name (default "Utente"), shows the spinner and asks for that user's list; without one nothing changes and nothing is asked |
| UserRankingsView.ApplyFilters | frontend/src/app/components/user-rankings/user-rankings.component.ts:101-108 | the shown list is an in-order sub-list of kept entries (no cuisine, or a cuisine not switched off), as many as the full list has, repeats included |
| UserRankingsView.FilteredFromUnique | frontend/src/app/components/user-rankings/user-rankings.component.ts:101-108 | only one list meets that description: `filter` of the full list by the kept test |
| UserRankingsView.NoCuisineAlwaysShown | frontend/src/app/components/user-rankings/user-rankings.component.ts:104 | an entry without a cuisine is always shown |
| UserRankingsView.CuisineShownIffNotExcluded | frontend/src/app/components/user-rankings/user-rankings.component.ts:103-106 | an entry with a cuisine is shown if and only if that cuisine is not switched off |
| UserRankingsView.NothingExcludedShowsAll | frontend/src/app/components/user-rankings/user-rankings.component.ts:101-108 | with nothing switched off, the whole list is shown in order |
| UserRankingsView.ToggleCuisine | frontend/src/app/components/user-rankings/user-rankings.component.ts:86-95 | the chip flips, the others stay, and the shown list is exactly the full list filtered by the new exclusions |
| UserRankingsView.ToggleFlipsExcluded | frontend/src/app/components/user-rankings/user-rankings.component.ts:97-99 | after a toggle the chip reads the opposite way and other chips read as before |
| UserRankingsView.IsCuisineExcluded | frontend/src/app/components/user-rankings/user-rankings.component.ts:97-99 | a chip reads as switched off exactly when it is in the exclusions; `ToggleFlipsExcluded` states how it flips |
| UserRankingsView.ToggleFilters | frontend/src/app/components/user-rankings/user-rankings.component.ts:82-84 | only the panel's visibility changes, and it flips |
| UserRankingsView.OnUserRankingsLoaded | frontend/src/app/components/user-rankings/user-rankings.component.ts:54-62 | the list is stored, the chips are its sorted distinct cuisines, the shown list is exactly the new list filtered by the current exclusions, and loading stops; every other field (exclusions, filter panel, user id and name, and a previous error message, which a successful reload does not clear) is kept |
| UserRankingsView.OnUserRankingsError | frontend/src/app/components/user-rankings/user-rankings.component.ts:64-70 | a 404 shows "Utente non trovato", any other failure the generic message; loading stops |
| ReviewForm.AverageRating | frontend/src/app/components/restaurant-detail/restaurant-detail.component.ts:123-125 | three times the average is the sum of the sub-ratings, and the average lies between the smallest and the largest of them |
| ReviewForm.AverageInRange | frontend/src/app/components/restaurant-detail/restaurant-detail.component.ts:23-24 | sub-ratings in [1, 5] give an average in [1, 5] |
| ReviewForm.ToggleReviewForm | frontend/src/app/components/restaurant-detail/restaurant-detail.component.ts:75-80 | visibility flips; the error is cleared only when the form opens |
| ReviewForm.ResetReviewForm | frontend/src/app/components/restaurant-detail/restaurant-detail.component.ts:115-121 | all three ratings go back to 3; comment and error are cleared; visibility and sending state are kept |
| ReviewForm.SubmitReview | frontend/src/app/components/restaurant-detail/restaurant-detail.component.ts:82-99 | a blank comment sets "Please provide a comment" and sends nothing; without a restaurant id nothing changes; otherwise the form is marked sending and the request carries the three ratings and the comment unchanged |
| ReviewForm.OnSubmitSuccess | frontend/src/app/components/restaurant-detail/restaurant-detail.component.ts:102-106 | sending stops, the form hides and is reset |
| ReviewForm.OnSubmitError | frontend/src/app/components/restaurant-detail/restaurant-detail.component.ts:108-111 | sending stops and the server's message is shown, or "Failed to submit review" without one |
| UsersPanel.SetFeedback | frontend/src/app/components/users/users.component.ts:75-77 | one user's feedback line is replaced and every other line is kept |
| UsersPanel.OnPasswordInput | frontend/src/app/components/users/users.component.ts:48-52 | the typed value is recorded for that user only, and only that user's feedback is removed |
| UsersPanel.UpdatePassword | frontend/src/app/components/users/users.component.ts:54-62 | a trimmed password shorter than 6 only sets the error line; otherwise the user is marked saving and the trimmed password, at least 6 long, is sent |
| UsersPanel.OnUpdateSuccess | frontend/src/app/components/users/users.component.ts:63-67 | a success line with the server's message, or "Password aggiornata" without one; that user's box emptied; both maps gain exactly that user's key; other users untouched; nothing saving; nothing else changes |
| UsersPanel.OnUpdateError | frontend/src/app/components/users/users.component.ts:68-71 | an error line for that user with the server's message, or the default without one; the feedback map gains exactly that user's key; typed passwords kept; nothing saving; nothing else changes |
| SettingsForm.Init | frontend/src/app/components/settings/settings.component.ts:37-44 | without a user the page navigates away; otherwise the box holds the display name, or "" when there is none |
| SettingsForm.SuperAdminCanManage | frontend/src/app/components/settings/settings.component.ts:69-72 | the user section shows exactly for admins and superadmins, so a superadmin always sees it |
| SettingsForm.CanManageUsers | frontend/src/app/components/settings/settings.component.ts:69-72 | the user section is offered to a signed-in admin or superadmin only; `SuperAdminCanManage` relates it to the roles |
| SettingsForm.IsSuperAdmin | frontend/src/app/components/settings/settings.component.ts:120-122 | only a signed-in superadmin may pick the admin role |
| SettingsForm.ResetUserForm | frontend/src/app/components/settings/settings.component.ts:81-88 | fields and messages cleared, role back to user, and every other field (visibility, in-progress flag, display name and its messages) kept |
| SettingsForm.ToggleUserForm | frontend/src/app/components/settings/settings.component.ts:74-79 | visibility flips; opening resets the form; closing keeps its fields |
| SettingsForm.CreateNewUser | frontend/src/app/components/settings/settings.component.ts:90-102 | an empty field sets "Tutti i campi sono richiesti" and sends nothing; otherwise the admin role goes to create-admin and any other to create-user, with the fields as typed |
| SettingsForm.OnCreateSuccess | frontend/src/app/components/settings/settings.component.ts:105-107 | creation stops and the message names the role created |
| SettingsForm.OnCreateError | frontend/src/app/components/settings/settings.component.ts:113-116 | creation stops and the server's message is shown, or "Creazione dell'utente fallita. Per favore riprova." without one |
| SettingsForm.UpdateDisplayName | frontend/src/app/components/settings/settings.component.ts:46-51 | loading starts, both messages clear, the name in the box is sent |
| SettingsForm.OnDisplayNameUpdated | frontend/src/app/components/settings/settings.component.ts:52-54 | loading stops with the success message |
| SettingsForm.OnDisplayNameError | frontend/src/app/components/settings/settings.component.ts:57-59 | loading stops with the server's message, or "Aggiornamento del nome fallito. Per favore riprova." without one |
| RestaurantCreate.OnSubmit | frontend/src/app/components/restaurant-create/restaurant-create.component.ts:30-44 | a blank name only sets the error; otherwise loading starts, the error clears, the name is sent as typed and each empty box is left out |
| RestaurantCreate.NameNotTrimmed | frontend/src/app/components/restaurant-create/restaurant-create.component.ts:40 | a name with surrounding spaces is sent with its spaces |
| RestaurantCreate.OnSubmitError | frontend/src/app/components/restaurant-create/restaurant-create.component.ts:50-53 | loading stops and the server's message is shown, or "Creazione del luogo fallita. Per favore riprova." without one |
| SuperadminGuard.Guard | frontend/src/app/guards/superadmin.guard.ts:5-22 | entry is allowed if and only if authenticated as superadmin; unauthenticated visitors go to login with the URL to return to; other users go to the restaurant list |
| SuperadminGuard.RefusalNavigates | frontend/src/app/guards/superadmin.guard.ts:15-21 | a visitor is navigated away if and only if refused |
| Db.MakeReview | backend/models/Review.js:14-26 | a review is built if and only if the rating is in [1, 5] and the trimmed comment is 5 to 500 long; the built review stores the trimmed comment |
| Db.EmptyValid | backend/models/Review.js:31-32 | the empty database satisfies every invariant |
| ReviewRoutes.ListReviews | backend/routes/reviews.js:9-24 | unknown restaurant gives 404; otherwise the list is newest first and holds exactly the stored reviews of that restaurant with an allocated id, each once |
| ReviewRoutes.ListReviewsComplete | backend/routes/reviews.js:9-24 | in a valid database every stored review of the restaurant is listed |
| ReviewRoutes.GetReview | backend/routes/reviews.js:37-47 | the stored review if it exists, else 404 "Review not found" |
| ReviewRoutes.CreateReview | backend/routes/reviews.js:60-119 | checks in order (fields truthy, restaurant exists, not yet reviewed, schema); a review is created if and only if all pass; a schema failure gives 500 "Error creating review"; a success stores under a fresh id the caller's review with the rating, the trimmed comment and `now`, and nothing else changes |
| ReviewRoutes.UpdateReview | backend/routes/reviews.js:123-161 | 404 for a missing review; 403 for anyone but the owner, whatever the role; the owner's update succeeds if and only if the patched review passes the schema, and otherwise gives 500 "Error updating review"; a success stores the patched review |
| ReviewRoutes.Patched | backend/routes/reviews.js:141-142 | each field is replaced only when the request carries it; the comment is trimmed; owner and restaurant never change |
| ReviewRoutes.DeleteReview | backend/routes/reviews.js:165-194 | deletion succeeds if and only if the review exists and the caller owns it or is admin or superadmin; it removes exactly that review |
| ReviewRoutes.AddReviewKeepsValid | backend/models/Review.js:31-32 | a valid review for a new (restaurant, user) pair under a fresh id keeps every invariant |
| ReviewRoutes.CreateReviewKeepsValid | backend/routes/reviews.js:79-97 | creating a review keeps every invariant, including one review per (restaurant, user) |
| ReviewRoutes.AddKeepsUnique | backend/models/Review.js:31-32 | adding a review for a pair with no review keeps the pair index unique |
| ReviewRoutes.ReplaceKeepsUnique | backend/models/Review.js:31-32 | replacing a review by one for the same pair keeps the index unique |
| ReviewRoutes.ReplaceReviewKeepsValid | backend/routes/reviews.js:141-144 | storing a valid review over one with the same pair keeps every invariant |
| ReviewRoutes.UpdateReviewKeepsValid | backend/routes/reviews.js:123-161 | updating a review keeps every invariant |
| ReviewRoutes.DeleteReviewKeepsValid | backend/routes/reviews.js:165-194 | deleting a review keeps every invariant |
| ReviewRoutes.NoSecondReview | backend/routes/reviews.js:79-88 | after one successful review, the same user's second review of that restaurant is refused |
| RestaurantRoutes.ListRestaurants | backend/routes/restaurants.js:8-17 | every stored restaurant with an allocated id, each once, newest first, and nothing else |
| RestaurantRoutes.ListRestaurantsComplete | backend/routes/restaurants.js:8-17 | in a valid database every stored restaurant is listed |
| RestaurantRoutes.GetRestaurant | backend/routes/restaurants.js:27-36 | the stored restaurant if it exists, else 404 "Restaurant not found" |
| RestaurantRoutes.CreateRestaurant | backend/routes/restaurants.js:49-73 | only admin or superadmin; a missing or empty name gives 400 and no change; a success stores the fields under a fresh id with the caller as creator |
| RestaurantRoutes.Patched | backend/routes/restaurants.js:94-97 | each field the request carries replaces the stored one, the rest are kept |
| RestaurantRoutes.EmptyPatchChangesNothing | backend/routes/restaurants.js:94-97 | an update with no fields changes nothing |
| RestaurantRoutes.PatchIdempotent | backend/routes/restaurants.js:94-97 | applying the same update twice equals applying it once |
| RestaurantRoutes.UpdateRestaurant | backend/routes/restaurants.js:83-106 | only admin or superadmin; 404 for a missing id with no change; a success stores the patched restaurant and nothing else |
| RestaurantRoutes.DeleteRestaurant | backend/routes/restaurants.js:119-129 | only admin or superadmin; 404 for a missing id; a success removes exactly that restaurant and leaves reviews and users untouched |
| RestaurantRoutes.DeleteLeavesReviews | backend/routes/restaurants.js:127 | the reviews of a deleted restaurant stay stored |
| RestaurantRoutes.CreateRestaurantKeepsValid | backend/routes/restaurants.js:58-66 | creating a restaurant keeps every invariant |
| RestaurantRoutes.UpdateRestaurantKeepsValid | backend/routes/restaurants.js:94-99 | updating a restaurant keeps every invariant |
| RestaurantRoutes.DeleteRestaurantKeepsValid | backend/routes/restaurants.js:127 | deleting a restaurant keeps every invariant |
| AuthRoutes.CreateAccount | backend/routes/auth.js:84-112 | 400 unless username, email and password are all truthy; 400 if an account has that email or that username; otherwise exactly one new user with the given role and creator, and nothing else changes |
| AuthRoutes.Register | backend/routes/auth.js:82-112 | registration is account creation with the plain-user role and no creator: the two 400s, success exactly when the fields are present and unused, the stored fields, other users untouched; it only ever creates a plain user |
| AuthRoutes.CreateAdmin | backend/routes/auth.js:430-461 | a non-superadmin gets 403 and nothing changes; for a superadmin it is account creation with the admin role and the caller as creator (the two 400s, success iff fields present and unused, stored fields, other users untouched) |
| AuthRoutes.CreateUserAccount | backend/routes/auth.js:525-556 | a caller who is neither admin nor superadmin gets 403 and nothing changes; otherwise it is account creation with the plain-user role and the caller as creator (the two 400s, success iff fields present and unused, stored fields, other users untouched) |
| AuthRoutes.AddKeepsUsersUnique | backend/routes/auth.js:94-102 | adding a user whose email and username are unused keeps both unique |
| AuthRoutes.CreateAccountKeepsValid | backend/routes/auth.js:94-112 | every creation path keeps every invariant, in particular unique emails and usernames |
| AuthRoutes.NoSecondAccount | backend/routes/auth.js:442-450 | after a successful creation, any request reusing its email or username is refused as existing |
| AuthRoutes.Login | backend/routes/auth.js:183-223 | 400 unless email and password are truthy; success only for a stored user with that email whose password matches, answering that user's id, username, display name, email and role (no creation time, no password); no user with that email gives 401 "Invalid email or password"; nothing else can be answered |
| AuthRoutes.LoginUnique | backend/routes/auth.js:195-206 | with unique emails, login succeeds if and only if some user has that email and a matching password, and every refusal carries the same 401 message |
| AuthRoutes.Me | backend/routes/auth.js:254-274 | the caller's own profile, every field of it taken from the stored account (id, username, display name, email, role, creation time; never the password); a caller with no account gets the 500 error |
| AuthRoutes.StoredDisplayName | backend/routes/auth.js:370 | a non-empty string is stored as sent; anything else stores null |
| AuthRoutes.DisplayNameAccepted | backend/routes/auth.js:348-361 | a display name passes validation when it is absent, null, or a string whose trimmed length is at most 50; `UpdateProfile` answers by it |
| AuthRoutes.UpdateProfile | backend/routes/auth.js:344-380 | a non-string name gives 400; a trimmed name longer than 50 gives 400; an unknown caller gives 404; a success changes only the caller's display name and answers the updated account's id, username, display name, email and role (no creation time) |
| AuthRoutes.PaddedNameStoredLong | backend/routes/auth.js:356-370 | a name of 60 spaces and "Ada" passes the check and is stored 63 characters long |
| AuthRoutes.ListUsers | backend/routes/auth.js:582-595 | superadmin only; every stored user's profile with an allocated id, in id order, and nothing else |
| AuthRoutes.ListUsersComplete | backend/routes/auth.js:582-595 | in a valid database a superadmin's list holds every stored user |
| AuthRoutes.ResetPassword | backend/routes/auth.js:605-620 | superadmin only; a missing, non-string or shorter-than-6 password gives 400; an unknown id gives 404; a success changes only that user's password |
| AuthRoutes.ReplaceUserKeepsValid | backend/routes/auth.js:370-371 | changing a user without touching email or username keeps every invariant |
| AuthRoutes.UpdateProfileKeepsValid | backend/routes/auth.js:344-371 | a profile update keeps every invariant |
| AuthRoutes.ResetPasswordKeepsValid | backend/routes/auth.js:605-620 | a password reset keeps every invariant |
| Agreement.PanelPasswordAccepted | frontend/src/app/components/users/users.component.ts:55-62 | a password the users page sends passes the route's length check, so a superadmin's reset of a stored user succeeds |
| Agreement.SettingsRequestHasFields | frontend/src/app/components/settings/settings.component.ts:91-102 | a request from the settings page is never answered with "fields required" |
| Agreement.PageRestaurantCreated | frontend/src/app/components/restaurant-create/restaurant-create.component.ts:31-44 | a restaurant the page submits is created for an admin, with the name exactly as typed |
| Agreement.PageReviewLacksRating | frontend/src/app/components/restaurant-detail/restaurant-detail.component.ts:94-99 | the route refuses every review the page sends as lacking a rating, and the database is unchanged |
| Seqs.Filter | frontend/src/app/components/rankings/rankings.component.ts:91 | `filter` keeps, in order, only elements satisfying the predicate, exactly as many as the input has, so every matching element and each repeat survive |
| Seqs.FilterUnique | frontend/src/app/components/rankings/rankings.component.ts:91 | any in-order sub-list of matching elements as long as the count of matches is the filtered list |
| Seqs.SortDesc | backend/routes/reviews.js:19 | `sort({ createdAt: -1 })` orders by the key, largest first, and is a permutation |
| Seqs.SortDescDistinct | backend/routes/reviews.js:19 | sorting a list without repeats gives a list without repeats |
| Seqs.EntriesWhere | backend/routes/reviews.js:17 | `find(query)` yields, in ascending id order, exactly the stored documents matching the query, with their ids |
| Seqs.SortedEntriesWhere | backend/routes/restaurants.js:10-12 | `find(query).sort({ createdAt: -1 })` yields exactly the matching documents, each id once, largest key first |
| Seqs.FindFirst | backend/routes/auth.js:195 | `findOne` finds a matching document if and only if one exists |
| Text.Trim | frontend/src/app/components/restaurant-detail/restaurant-detail.component.ts:83 | `trim` yields the input without its leading and trailing whitespace run: no surrounding whitespace, empty exactly for all-whitespace input |
| Text.TrimStripsPadding | frontend/src/app/components/restaurant-detail/restaurant-detail.component.ts:83 | whitespace around a trimmed non-empty core is exactly what `trim` removes |
| Text.TrimFixesTrimmed | backend/models/Review.js:23 | `trim` leaves a string alone if and only if it has no surrounding whitespace |
| Text.LessTotal | frontend/src/app/components/rankings/rankings.component.ts:39 | the `sort()` order compares any two different strings one way or the other |

## Left out

- HTTP, Express routing, status codes as numbers, and JSON serialisation are left out. Handlers return an `Outcome` instead.
- JWT signing, cookies, logout and the token in the login and registration responses are left out. These are I/O with no decision in them.
- The `authenticate` and `authorize` middleware are represented only by the `Caller` value and the `Denied` outcome, because their code is not part of this model. The rate limiters are left out for the same reason.
- Password hashing is left out. The User schema is not part of this model, so the stored password is the one sent, and `comparePassword` is the `passwordMatches` parameter of `Login`.
- The User and Restaurant schemas are not part of this model. Apart from the review schema, any schema validation or trimming on save is therefore not modelled.
- Duplicate-key errors (code 11000) raised by a concurrent write are left out. The model is sequential.
- Malformed ObjectIds are left out; ids are naturals. In the review and restaurant routes a malformed id is caught as a `CastError` and answered with 404, but the password-reset route (backend/routes/auth.js:605-628, `findById` at :614) has no such case and answers 500.
- `populate` is left out. Responses carry ids, not joined user or restaurant documents.
- Request fields that are `null`, or not strings, are left out for reviews, restaurants, account creation and login. A non-string login email, such as an object handed on to `findOne`, is therefore not modelled. There they are modelled as present strings or missing. Display names and reset passwords do model non-strings, through `Json`.
- `Text.Trim` works on code points, and lengths are counted in code points. JavaScript counts UTF-16 units, so characters outside the Basic Multilingual Plane count once here and twice in JavaScript.
- `Text.Less` compares code points, while JavaScript's `sort()` compares UTF-16 units. The two orders differ only for characters outside the Basic Multilingual Plane.
- Ratings are exact reals, so IEEE-754 rounding is left out. In `RatingDisplay.FormatRating`, the page's `+(rounded - whole).toFixed(2)` is exact for quarter values, so it becomes the bucket's remainder modulo 4.
- The restaurant page's `formatRating` (`toFixed(1)` of an arbitrary real) is left out. Only the leaderboard's quarter labels are rendered.
- `frontend/src/app/services/auth.service.ts` as available here declares no `updateUserPassword`, `createAdmin` or `createUser`. The request bodies that `Agreement.PanelPasswordAccepted` and `Agreement.SettingsRequestHasFields` build (`{ password }` and `{ username, email, password }`) are therefore assumed from the route handlers, not read from the service. The display-name request has no agreement lemma, for the same reason.
- The server-side leaderboard aggregation is left out, because no backend ranking route is part of this model. Leaderboard rows are inputs.
- Page loading of restaurants and reviews, `viewRestaurant` and other navigation calls, `setTimeout` resets of messages, and the delayed form reset after an account is created are left out. These are I/O or timers.
- `RatingDisplay.Round`: assumes the argument is an exact real. JavaScript's `Math.round` of a double that is not exactly representable may round differently.
- `AuthRoutes.ListUsers`: lists users in id order, standing in for MongoDB's natural order. `updatedAt` is not modelled.
- `updatedAt` is not modelled for reviews or restaurants. The review schema keeps one (`timestamps: true`, backend/models/Review.js:27-29) and an update refreshes it; the model stores only `createdAt`. The restaurant and user schemas are not part of this model, and their records likewise carry only `createdAt`.

=== FILE: agreement.dfy ===
/** Where a page validates a request before sending it, what it sends passes
    the matching check of the backend route. */
module Agreement {
  import opened Common
  import Db
  import Text
  import UsersPanel
  import SettingsForm
  import RestaurantCreate
  import AuthRoutes
  import RestaurantRoutes
  import ReviewForm
  import ReviewRoutes

  /** A password the users page sends is never refused as too short: the page
      requires six characters after trimming, the route six characters. */
  lemma PanelPasswordAccepted(st: UsersPanel.UsersPanelState, userId: string, db: Db.Database, caller: Db.Caller,
                              id: Id)
    requires UsersPanel.UpdatePassword(st, userId).1.Some?
    requires caller.role == SuperAdminRole && id in db.users
    ensures var sent := UsersPanel.UpdatePassword(st, userId).1.value.password;
      AuthRoutes.ResetPassword(db, caller, id, Json.Str(sent)).0.Ok?
  {
  }

  /** The body of an account-creation request the settings page sends. */
  function AccountBodyOf(request: SettingsForm.CreateRequest): AuthRoutes.AccountBody {
    AuthRoutes.AccountBody(Some(request.username), Some(request.email), Some(request.password))
  }

  /** An account-creation request from the settings page always has its three
      fields, so the route never answers that a field is missing. */
  lemma SettingsRequestHasFields(st: SettingsForm.SettingsState, db: Db.Database, caller: Db.Caller, now: int)
    requires SettingsForm.CreateNewUser(st).1.Some?
    ensures var body := AccountBodyOf(SettingsForm.CreateNewUser(st).1.value);
      && AuthRoutes.CreateAdmin(db, caller, body, now).0 != BadRequest(AuthRoutes.FieldsRequired)
      && AuthRoutes.CreateUserAccount(db, caller, body, now).0 != BadRequest(AuthRoutes.FieldsRequired)
  {
  }

  /** The body of a create-restaurant request the new-restaurant page sends. */
  function RestaurantBodyOf(payload: RestaurantCreate.RestaurantPayload): RestaurantRoutes.RestaurantBody {
    RestaurantRoutes.RestaurantBody(Some(payload.name), payload.description, payload.address, payload.cuisine)
  }

  /** A restaurant the page submits always has a name, so an admin's request
      creates it; the stored name keeps any surrounding spaces. */
  lemma PageRestaurantCreated(st: RestaurantCreate.CreateState, db: Db.Database, caller: Db.Caller, now: int)
    requires RestaurantCreate.OnSubmit(st).1.Some?
    requires IsElevated(caller.role)
    ensures var res := RestaurantRoutes.CreateRestaurant(db, caller, RestaurantBodyOf(RestaurantCreate.OnSubmit(st).1.value), now);
      res.0.Created? && res.1.restaurants[res.0.value].name == st.name
  {
    var payload := RestaurantCreate.OnSubmit(st).1.value;
    assert payload.name == st.name;
    assert !Text.AllSpace(st.name);
  }

  /** The body the review route reads from the review page's request. The page
      sends three sub-ratings and no field named `rating`, so the route sees
      the rating as missing. */
  function ReviewBodyOf(payload: ReviewForm.ReviewPayload): ReviewRoutes.ReviewBody {
    ReviewRoutes.ReviewBody(None, Some(payload.comment))
  }

  /** A review the page submits is refused by the route as lacking a rating,
      whatever the sub-ratings and the comment, and the database is unchanged. */
  lemma PageReviewLacksRating(st: ReviewForm.ReviewFormState, restaurantId: Option<string>, db: Db.Database,
                              caller: Db.Caller, restaurant: Id, now: int)
    requires ReviewForm.SubmitReview(st, restaurantId).1.Some?
    ensures var payload := ReviewForm.SubmitReview(st, restaurantId).1.value.payload;
      ReviewRoutes.CreateReview(db, caller, restaurant, ReviewBodyOf(payload), now)
      == (BadRequest(ReviewRoutes.RatingAndCommentRequired), db)
  {
  }
}

=== FILE: auth_routes.dfy ===
/** The account routes: registration, account creation by an admin or a
    superadmin, login, the caller's profile, the display-name update, the
    superadmin's user list and password reset. Every creation path refuses
    an email or a username already in use, so both stay unique. */
module AuthRoutes {
  import opened Common
  import opened Text
  import opened Seqs
  import opened Db

  const FieldsRequired := "Username, email, and password are required"
  const AccountExists := "User with this email or username already exists"
  const CredentialsRequired := "Email and password are required"
  const InvalidCredentials := "Invalid email or password"
  const ProfileFetchFailed := "Error fetching user profile"
  const DisplayNameNotString := "Display name must be a string"
  const DisplayNameTooLong := "Display name must not exceed 50 characters"
  const UserNotFound := "User not found"
  const ShortPassword := "La password deve avere almeno 6 caratteri."

  const MaxDisplayNameLength: nat := 50
  const MinPasswordLength: nat := 6

  /** The fields of a registration or account-creation body; `None` is a missing field. */
  datatype AccountBody = AccountBody(username: Option<string>, email: Option<string>, password: Option<string>)

  /** The user fields the handlers send back (never the password). */
  datatype Profile = Profile(id: Id, username: string, displayName: Option<string>, email: string, role: Role,
                             createdAt: int)

  function ProfileOf(id: Id, u: User): Profile {
    Profile(id, u.username, u.displayName, u.email, u.role, u.createdAt)
  }

  /** The shorter user object that login and the profile update send back:
      the profile without its creation time. */
  datatype UserSummary = UserSummary(id: Id, username: string, displayName: Option<string>, email: string, role: Role)

  function SummaryOf(id: Id, u: User): UserSummary {
    UserSummary(id, u.username, u.displayName, u.email, u.role)
  }

  // ---------------------------------------------------------------------------
  // Account creation.

  /** The steps shared by the three creation routes: all three fields truthy,
      no user with the same email or username, then a new user with the given
      role and creator. */
  function CreateAccount(db: Database, body: AccountBody, role: Role, createdBy: Option<Id>, now: int)
    : (res: (Outcome<Id>, Database))
    ensures !Truthy(body.username) || !Truthy(body.email) || !Truthy(body.password) ==>
      res == (BadRequest(FieldsRequired), db)
    ensures Truthy(body.username) && Truthy(body.email) && Truthy(body.password)
            && AccountTaken(db, body.email.value, body.username.value) ==>
      res == (BadRequest(AccountExists), db)
    ensures res.0.Created? <==>
      && Truthy(body.username) && Truthy(body.email) && Truthy(body.password)
      && !AccountTaken(db, body.email.value, body.username.value)
    ensures !res.0.Created? ==> res.1 == db
    ensures res.0.Created? && IdsAllocated(db) ==> res.0.value !in db.users
    ensures res.0.Created? ==>
      && res.1.users.Keys == db.users.Keys + {res.0.value}
      && (forall id :: id in db.users && id != res.0.value ==> res.1.users[id] == db.users[id])
      && res.1.users[res.0.value]
         == User(body.username.value, body.email.value, body.password.value, role, None, createdBy, now)
      && res.1.restaurants == db.restaurants && res.1.reviews == db.reviews
  {
    if !Truthy(body.username) || !Truthy(body.email) || !Truthy(body.password) then
      (BadRequest(FieldsRequired), db)
    else if AccountTaken(db, body.email.value, body.username.value) then
      (BadRequest(AccountExists), db)
    else
      var id := db.nextId;
      var user := User(body.username.value, body.email.value, body.password.value, role, None, createdBy, now);
      (Created(id), db.(users := db.users[id := user], nextId := id + 1))
  }

  /** POST /register: anyone may register, always as a plain user created by nobody. */
  function Register(db: Database, body: AccountBody, now: int): (res: (Outcome<Id>, Database))
    ensures res.0.Created? ==>
      res.0.value in res.1.users && res.1.users[res.0.value].role == UserRole && res.1.users[res.0.value].createdBy.None?
    ensures res.0.Created? || res.0 == BadRequest(FieldsRequired) || res.0 == BadRequest(AccountExists)
    ensures res == CreateAccount(db, body, UserRole, None, now)
  {
    CreateAccount(db, body, UserRole, None, now)
  }

  /** POST /create-admin: only a superadmin may create an admin, who is
      recorded as created by the caller. */
  function CreateAdmin(db: Database, caller: Caller, body: AccountBody, now: int): (res: (Outcome<Id>, Database))
    ensures caller.role != SuperAdminRole ==> res == (Denied, db)
    ensures res.0.Created? ==>
      && caller.role == SuperAdminRole
      && res.0.value in res.1.users
      && res.1.users[res.0.value].role == AdminRole
      && res.1.users[res.0.value].createdBy == Some(caller.userId)
    ensures caller.role == SuperAdminRole ==> res == CreateAccount(db, body, AdminRole, Some(caller.userId), now)
  {
    if caller.role != SuperAdminRole then (Denied, db)
    else CreateAccount(db, body, AdminRole, Some(caller.userId), now)
  }

  /** POST /create-user: an admin or a superadmin may create a plain user,
      recorded as created by the caller. */
  function CreateUserAccount(db: Database, caller: Caller, body: AccountBody, now: int)
    : (res: (Outcome<Id>, Database))
    ensures !IsElevated(caller.role) ==> res == (Denied, db)
    ensures res.0.Created? ==>
      && IsElevated(caller.role)
      && res.0.value in res.1.users
      && res.1.users[res.0.value].role == UserRole
      && res.1.users[res.0.value].createdBy == Some(caller.userId)
    ensures IsElevated(caller.role) ==> res == CreateAccount(db, body, UserRole, Some(caller.userId), now)
  {
    if !IsElevated(caller.role) then (Denied, db)
    else CreateAccount(db, body, UserRole, Some(caller.userId), now)
  }

  /** Adding a user whose email and username are both unused keeps them unique. */
  lemma {:induction false} AddKeepsUsersUnique(db: Database, n: Id, u: User)
    requires UsersUnique(db.users)
    requires n !in db.users
    requires !AccountTaken(db, u.email, u.username)
    ensures UsersUnique(db.users[n := u])
  {
    var m := db.users[n := u];
    forall a, b | a in m && b in m && a != b
      ensures m[a].email != m[b].email && m[a].username != m[b].username
    {
      if a == n {
        assert m[b] == db.users[b];
      } else if b == n {
        assert m[a] == db.users[a];
      } else {
        assert m[a] == db.users[a] && m[b] == db.users[b];
      }
    }
  }

  /** Every creation path keeps every database invariant, in particular unique
      emails and usernames. */
  lemma {:induction false} CreateAccountKeepsValid(db: Database, body: AccountBody, role: Role, createdBy: Option<Id>,
                                                   now: int)
    requires Valid(db)
    ensures Valid(CreateAccount(db, body, role, createdBy, now).1)
  {
    var res := CreateAccount(db, body, role, createdBy, now);
    if res.0.Created? {
      var n := db.nextId;
      var u := User(body.username.value, body.email.value, body.password.value, role, None, createdBy, now);
      assert res.1 == db.(users := db.users[n := u], nextId := n + 1);
      AddKeepsUsersUnique(db, n, u);
      assert IdsAllocated(res.1);
    }
  }

  /** A successful creation makes its email and its username taken, so the
      same request made again is refused. */
  lemma {:induction false} NoSecondAccount(db: Database, body: AccountBody, other: AccountBody, role: Role, role': Role,
                                           createdBy: Option<Id>, createdBy': Option<Id>, t1: int, t2: int)
    requires CreateAccount(db, body, role, createdBy, t1).0.Created?
    requires Truthy(other.email) && Truthy(other.username) && Truthy(other.password)
    requires other.email == body.email || other.username == body.username
    ensures CreateAccount(CreateAccount(db, body, role, createdBy, t1).1, other, role', createdBy', t2).0
         == BadRequest(AccountExists)
  {
    var (out, db1) := CreateAccount(db, body, role, createdBy, t1);
    assert AccountTaken(db1, other.email.value, other.username.value) by {
      assert db1.users[out.value].email == body.email.value;
      assert db1.users[out.value].username == body.username.value;
    }
  }

  // ---------------------------------------------------------------------------
  // Login and profile.

  /** The email a user signs in with. */
  predicate HasEmail(email: string, u: User) {
    u.email == email
  }

  /** POST /login. `passwordMatches` stands for the stored-hash comparison.
      An unknown email and a wrong password get the same answer. */
  function Login(db: Database, email: Option<string>, password: Option<string>,
                 passwordMatches: (User, string) -> bool): (r: Outcome<UserSummary>)
    ensures !Truthy(email) || !Truthy(password) ==> r == BadRequest(CredentialsRequired)
    ensures r.Ok? ==>
      && Truthy(email) && Truthy(password)
      && r.value.id in db.users && r.value == SummaryOf(r.value.id, db.users[r.value.id])
      && db.users[r.value.id].email == email.value
      && passwordMatches(db.users[r.value.id], password.value)
    ensures Truthy(email) && Truthy(password)
            && (forall id :: id < db.nextId && id in db.users ==> db.users[id].email != email.value) ==>
      r == Unauthorized(InvalidCredentials)
    ensures r.Ok? || r == BadRequest(CredentialsRequired) || r == Unauthorized(InvalidCredentials)
  {
    if !Truthy(email) || !Truthy(password) then BadRequest(CredentialsRequired)
    else
      match FindFirst(db.users, db.nextId, u => HasEmail(email.value, u))
      case None => Unauthorized(InvalidCredentials)
      case Some(id) =>
        if !passwordMatches(db.users[id], password.value) then Unauthorized(InvalidCredentials)
        else Ok(SummaryOf(id, db.users[id]))
  }

  /** With unique emails, login succeeds exactly for a stored user with that
      email whose password matches; an unknown email and a wrong password are
      refused with the same message. */
  lemma {:induction false} LoginUnique(db: Database, email: string, password: string,
                                       passwordMatches: (User, string) -> bool)
    requires Valid(db)
    requires email != "" && password != ""
    ensures Login(db, Some(email), Some(password), passwordMatches).Ok? <==>
      exists id :: id in db.users && db.users[id].email == email && passwordMatches(db.users[id], password)
    ensures !Login(db, Some(email), Some(password), passwordMatches).Ok? ==>
      Login(db, Some(email), Some(password), passwordMatches) == Unauthorized(InvalidCredentials)
  {
    var found := FindFirst(db.users, db.nextId, u => HasEmail(email, u));
    if exists id :: id in db.users && db.users[id].email == email && passwordMatches(db.users[id], password) {
      var id :| id in db.users && db.users[id].email == email && passwordMatches(db.users[id], password);
      assert HasEmail(email, db.users[id]);
      assert found.Some?;
      var f := found.value;
      assert db.users[f].email == email;
      assert f == id;
    }
  }

  /** GET /me: the caller's profile; a caller whose account is gone makes the
      handler fail. */
  function Me(db: Database, caller: Caller): (r: Outcome<Profile>)
    ensures caller.userId in db.users <==> r.Ok?
    ensures r.Ok? ==> r.value.id == caller.userId && r.value.email == db.users[caller.userId].email
                      && r.value.role == db.users[caller.userId].role
    ensures r.Ok? ==> r.value == ProfileOf(caller.userId, db.users[caller.userId])
    ensures !r.Ok? ==> r == ServerError(ProfileFetchFailed)
  {
    if caller.userId in db.users then Ok(ProfileOf(caller.userId, db.users[caller.userId]))
    else ServerError(ProfileFetchFailed)
  }

  /** The display name a valid profile request stores: `displayName || null`.
      The stored name is the one sent, not its trimmed form. */
  function StoredDisplayName(displayName: Json): (r: Option<string>)
    ensures r.Some? <==> displayName.Str? && displayName.s != ""
    ensures r.Some? ==> r.value == displayName.s
  {
    if displayName.Str? && displayName.s != "" then Some(displayName.s) else None
  }

  /** Whether a profile request's display name passes validation: missing,
      null, or a string at most 50 characters long once trimmed. */
  predicate DisplayNameAccepted(displayName: Json) {
    displayName.Absent? || displayName.Null? || (displayName.Str? && |Trim(displayName.s)| <= MaxDisplayNameLength)
  }

  /** PUT /profile: validate the display name, then store it on the caller's account. */
  function UpdateProfile(db: Database, caller: Caller, displayName: Json): (res: (Outcome<UserSummary>, Database))
    ensures displayName.NonString? ==> res == (BadRequest(DisplayNameNotString), db)
    ensures displayName.Str? && |Trim(displayName.s)| > MaxDisplayNameLength ==>
      res == (BadRequest(DisplayNameTooLong), db)
    ensures DisplayNameAccepted(displayName) && caller.userId !in db.users ==>
      res == (NotFound(UserNotFound), db)
    ensures res.0.Ok? <==> DisplayNameAccepted(displayName) && caller.userId in db.users
    ensures !res.0.Ok? ==> res.1 == db
    ensures res.0.Ok? ==>
      && res.1 == db.(users := db.users[caller.userId := db.users[caller.userId].(displayName := StoredDisplayName(displayName))])
      && res.0.value.displayName == StoredDisplayName(displayName)
      && res.0.value == SummaryOf(caller.userId, res.1.users[caller.userId])
  {
    if displayName.NonString? then (BadRequest(DisplayNameNotString), db)
    else if displayName.Str? && |Trim(displayName.s)| > MaxDisplayNameLength then (BadRequest(DisplayNameTooLong), db)
    else if caller.userId !in db.users then (NotFound(UserNotFound), db)
    else
      var user := db.users[caller.userId].(displayName := StoredDisplayName(displayName));
      (Ok(SummaryOf(caller.userId, user)), db.(users := db.users[caller.userId := user]))
  }

  /** The length check applies to the trimmed name while the name is stored as
      sent: a name padded with spaces can be stored longer than 50 characters. */
  lemma PaddedNameStoredLong()
    ensures var padded := Json.Str(Spaces(60) + "Ada");
      DisplayNameAccepted(padded) && |StoredDisplayName(padded).value| > MaxDisplayNameLength
  {
    assert Spaces(60) + "Ada" == Spaces(60) + "Ada" + "";
    TrimStripsPadding(Spaces(60), "Ada", "");
  }

  /** `n` space characters. */
  function Spaces(n: nat): (s: string)
    ensures |s| == n && forall i :: 0 <= i < n ==> s[i] == ' '
    ensures AllSpace(s)
  {
    if n == 0 then "" else [' '] + Spaces(n - 1)
  }

  // ---------------------------------------------------------------------------
  // Superadmin user management.

  /** The profiles of stored (id, user) pairs, position by position. */
  function ProfilesOf(es: seq<(Id, User)>): (ps: seq<Profile>)
    ensures |ps| == |es|
    ensures forall i :: 0 <= i < |es| ==> ps[i] == ProfileOf(es[i].0, es[i].1)
  {
    if |es| == 0 then [] else [ProfileOf(es[0].0, es[0].1)] + ProfilesOf(es[1..])
  }

  /** A profile of a listed pair is among the listed profiles. */
  lemma ProfileListed(es: seq<(Id, User)>, id: Id, u: User)
    requires (id, u) in es
    ensures ProfileOf(id, u) in ProfilesOf(es)
  {
    var i :| 0 <= i < |es| && es[i] == (id, u);
    assert ProfilesOf(es)[i] == ProfileOf(id, u);
  }

  /** GET /users: every account's profile in storage order, for a superadmin only. */
  function ListUsers(db: Database, caller: Caller): (r: Outcome<seq<Profile>>)
    ensures caller.role != SuperAdminRole <==> r == Denied
    ensures r.Ok? ==>
      && (forall i, j :: 0 <= i < j < |r.value| ==> r.value[i].id < r.value[j].id)
      && (forall i :: 0 <= i < |r.value| ==>
            r.value[i].id in db.users && r.value[i] == ProfileOf(r.value[i].id, db.users[r.value[i].id]))
      && (forall id :: id < db.nextId && id in db.users ==> ProfileOf(id, db.users[id]) in r.value)
    ensures r.Ok? || r == Denied
  {
    if caller.role != SuperAdminRole then Denied
    else
      var entries := EntriesWhere(db.users, db.nextId, (u: User) => true);
      var profiles := ProfilesOf(entries);
      assert forall id :: id < db.nextId && id in db.users ==> ProfileOf(id, db.users[id]) in profiles by {
        forall id | id < db.nextId && id in db.users ensures ProfileOf(id, db.users[id]) in profiles {
          ProfileListed(entries, id, db.users[id]);
        }
      }
      Ok(profiles)
  }

  /** In a valid database every id is allocated, so a superadmin sees every user. */
  lemma ListUsersComplete(db: Database, caller: Caller)
    requires Valid(db)
    ensures ListUsers(db, caller).Ok? ==>
      forall id :: id in db.users ==> ProfileOf(id, db.users[id]) in ListUsers(db, caller).value
  {
  }

  /** PUT /users/:id/password: a superadmin sets a new password of at least six characters. */
  function ResetPassword(db: Database, caller: Caller, id: Id, password: Json): (res: (Outcome<()>, Database))
    ensures caller.role != SuperAdminRole ==> res == (Denied, db)
    ensures caller.role == SuperAdminRole && !(password.Str? && |password.s| >= MinPasswordLength) ==>
      res == (BadRequest(ShortPassword), db)
    ensures caller.role == SuperAdminRole && password.Str? && |password.s| >= MinPasswordLength && id !in db.users ==>
      res == (NotFound(UserNotFound), db)
    ensures res.0.Ok? <==>
      caller.role == SuperAdminRole && password.Str? && |password.s| >= MinPasswordLength && id in db.users
    ensures !res.0.Ok? ==> res.1 == db
    ensures res.0.Ok? ==> res.1 == db.(users := db.users[id := db.users[id].(password := password.s)])
  {
    if caller.role != SuperAdminRole then (Denied, db)
    else if !password.IsTruthy() || !password.Str? || |password.s| < MinPasswordLength then (BadRequest(ShortPassword), db)
    else if id !in db.users then (NotFound(UserNotFound), db)
    else (Ok(()), db.(users := db.users[id := db.users[id].(password := password.s)]))
  }

  /** Changing only a user's display name or password keeps every database invariant. */
  lemma {:induction false} ReplaceUserKeepsValid(db: Database, id: Id, u: User)
    requires Valid(db)
    requires id in db.users && u.email == db.users[id].email && u.username == db.users[id].username
    ensures Valid(db.(users := db.users[id := u]))
  {
    var m := db.users[id := u];
    forall a, b | a in m && b in m && a != b
      ensures m[a].email != m[b].email && m[a].username != m[b].username
    {
      assert m[a].email == db.users[a].email && m[a].username == db.users[a].username;
      assert m[b].email == db.users[b].email && m[b].username == db.users[b].username;
    }
  }

  lemma {:induction false} UpdateProfileKeepsValid(db: Database, caller: Caller, displayName: Json)
    requires Valid(db)
    ensures Valid(UpdateProfile(db, caller, displayName).1)
  {
    if DisplayNameAccepted(displayName) && caller.userId in db.users {
      ReplaceUserKeepsValid(db, caller.userId,
                            db.users[caller.userId].(displayName := StoredDisplayName(displayName)));
    }
  }

  lemma {:induction false} ResetPasswordKeepsValid(db: Database, caller: Caller, id: Id, password: Json)
    requires Valid(db)
    ensures Valid(ResetPassword(db, caller, id, password).1)
  {
    if caller.role == SuperAdminRole && password.Str? && |password.s| >= MinPasswordLength && id in db.users {
      ReplaceUserKeepsValid(db, id, db.users[id].(password := password.s));
    }
  }
}

=== FILE: common.dfy ===
/** Shared vocabulary of the restaurant-review application: optional values,
    record identifiers, user roles and the outcome of a backend handler. */
module Common {

  /** A value that may be missing (`undefined`/`null` in JavaScript). */
  datatype Option<+T> = None | Some(value: T) {

    /** The value, or `default` when missing (JavaScript's `x || default` on objects). */
    function GetOr(default: T): T {
      match this
      case Some(v) => v
      case None => default
    }
  }

  /** Identifier of a stored document (a database object id). */
  type Id = nat

  /** Roles are plain strings in both the backend and the frontend. */
  type Role = string

  const UserRole: Role := "user"
  const AdminRole: Role := "admin"
  const SuperAdminRole: Role := "superadmin"

  /** The elevated roles: allowed to manage restaurants and other users' reviews. */
  predicate IsElevated(role: Role) {
    role == AdminRole || role == SuperAdminRole
  }

  /** JavaScript truthiness of an optional string: present and non-empty. */
  predicate Truthy(s: Option<string>) {
    s.Some? && s.value != ""
  }

  /** JavaScript's `s || fallback` on an optional string. */
  function OrElse(s: Option<string>, fallback: string): (r: string)
    ensures Truthy(s) ==> r == s.value
    ensures !Truthy(s) ==> r == fallback
  {
    if Truthy(s) then s.value else fallback
  }

  /** JavaScript's `s || undefined`: an empty string becomes missing. */
  function NonEmptyOrNone(s: string): (r: Option<string>)
    ensures r.None? <==> s == ""
    ensures r.Some? ==> r.value == s
  {
    if s == "" then None else Some(s)
  }

  /** A JSON value of a request body field, as far as the handlers look at it. */
  datatype Json = Absent | Null | Str(s: string) | NonString(truthy: bool) {

    /** JavaScript truthiness of the field. */
    predicate IsTruthy() {
      match this
      case Absent => false
      case Null => false
      case Str(s) => s != ""
      case NonString(t) => t
    }
  }

  /** The result of a backend route handler: a status class and a message or a value.
      `Denied` stands for a rejection by the role-authorization middleware, whose
      response is not part of this model. */
  datatype Outcome<+T> =
    | Ok(value: T)
    | Created(value: T)
    | BadRequest(message: string)
    | Unauthorized(message: string)
    | Denied
    | Forbidden(message: string)
    | NotFound(message: string)
    | ServerError(message: string)
  {
    predicate IsSuccess() {
      Ok? || Created?
    }
  }
}

=== FILE: cuisines.dfy ===
/** What the two leaderboard pages share: the ranking entry they display,
    the cuisine filter chips (a set toggled one cuisine at a time), and the
    list of cuisines offered as chips (distinct, in `sort()` order). */
module Cuisines {
  import opened Common
  import opened Text

  /** One leaderboard row as the pages read it. The server computes it; the
      pages only read its restaurant, its cuisine and its average. */
  datatype RankingItem = RankingItem(
    restaurantId: string,
    restaurantName: string,
    cuisine: Option<string>,
    averageRating: real)

  /** `if (r.cuisine)`: the entry names a cuisine (a missing or empty one does not count). */
  predicate HasCuisine(e: RankingItem) {
    Truthy(e.cuisine)
  }

  /** `has(c) ? delete(c) : add(c)` on a copy of the set. */
  function Toggle(s: set<string>, c: string): (r: set<string>)
    ensures c in r <==> c !in s
    ensures forall x :: x != c ==> (x in r <==> x in s)
  {
    if c in s then s - {c} else s + {c}
  }

  /** Toggling the same cuisine twice gives back the original set. */
  lemma ToggleTwice(s: set<string>, c: string)
    ensures Toggle(Toggle(s, c), c) == s
  {
  }

  // ---------------------------------------------------------------------------
  // The chip list: `Array.from(new Set(defined cuisines)).sort()`.

  /** Each element sorts strictly before the next one. */
  predicate StrictlySorted(xs: seq<string>) {
    forall i :: 0 < i < |xs| ==> Less(xs[i - 1], xs[i])
  }

  lemma {:induction false} StrictlySortedPairs(xs: seq<string>, i: nat, j: nat)
    requires StrictlySorted(xs)
    requires i < j < |xs|
    ensures Less(xs[i], xs[j])
    decreases j - i
  {
    if i + 1 < j {
      StrictlySortedPairs(xs, i + 1, j);
      LessTransitive(xs[i], xs[i + 1], xs[j]);
    }
  }

  /** A strictly sorted list repeats no element. */
  lemma StrictlySortedDistinct(xs: seq<string>)
    requires StrictlySorted(xs)
    ensures forall i, j :: 0 <= i < j < |xs| ==> xs[i] != xs[j]
  {
    forall i, j | 0 <= i < j < |xs|
      ensures xs[i] != xs[j]
    {
      StrictlySortedPairs(xs, i, j);
      LessIrreflexive(xs[i]);
    }
  }

  /** Adds `c` to a sorted list of distinct strings unless it is already there. */
  function InsertSorted(xs: seq<string>, c: string): (r: seq<string>)
    requires StrictlySorted(xs)
    ensures StrictlySorted(r)
    ensures forall x :: x in r <==> x in xs || x == c
    ensures |r| > 0 && (r[0] == c || (|xs| > 0 && r[0] == xs[0]))
  {
    if |xs| == 0 then [c]
    else if c == xs[0] then xs
    else if Less(c, xs[0]) then [c] + xs
    else
      LessTotal(c, xs[0]);
      [xs[0]] + InsertSorted(xs[1..], c)
  }

  /** The cuisines named by some entry. */
  ghost function NamedCuisines(entries: seq<RankingItem>): set<string> {
    set i | 0 <= i < |entries| && HasCuisine(entries[i]) :: entries[i].cuisine.value
  }

  /** The chip list of a loaded leaderboard: sorted, without repeats, and
      holding exactly the cuisines the entries name. */
  function CuisineList(entries: seq<RankingItem>): (r: seq<string>)
    ensures StrictlySorted(r)
    ensures forall c :: c in r <==> c in NamedCuisines(entries)
  {
    if |entries| == 0 then []
    else
      var init := entries[..|entries| - 1];
      var last := entries[|entries| - 1];
      var rest := CuisineList(init);
      assert forall i :: 0 <= i < |init| ==> init[i] == entries[i];
      if HasCuisine(last) then
        assert NamedCuisines(entries) == NamedCuisines(init) + {last.cuisine.value};
        InsertSorted(rest, last.cuisine.value)
      else
        assert NamedCuisines(entries) == NamedCuisines(init);
        rest
  }

  /** The chip list never offers the same cuisine twice. */
  lemma CuisineListDistinct(entries: seq<RankingItem>)
    ensures forall i, j :: 0 <= i < j < |CuisineList(entries)| ==>
      CuisineList(entries)[i] != CuisineList(entries)[j]
  {
    StrictlySortedDistinct(CuisineList(entries));
  }
}

=== FILE: db.dfy ===
/** The backend's stored documents, with the database treated as three maps
    from ids to records, and the invariants the route handlers keep: every id
    was allocated, every review passes the review schema, at most one review
    per (restaurant, user) pair, and no two users share an email or a username. */
module Db {
  import opened Common
  import opened Text

  /** A review as the review schema stores it: a single rating and a comment. */
  datatype Review = Review(restaurant: Id, user: Id, rating: real, comment: string, createdAt: int)

  datatype Restaurant = Restaurant(
    name: string,
    description: Option<string>,
    address: Option<string>,
    cuisine: Option<string>,
    createdBy: Id,
    createdAt: int)

  datatype User = User(
    username: string,
    email: string,
    password: string,
    role: Role,
    displayName: Option<string>,
    createdBy: Option<Id>,
    createdAt: int)

  /** All collections, and the next id to hand out (ids are never reused). */
  datatype Database = Database(
    restaurants: map<Id, Restaurant>,
    reviews: map<Id, Review>,
    users: map<Id, User>,
    nextId: Id)

  /** The authenticated caller of a route, as the authentication middleware provides it. */
  datatype Caller = Caller(userId: Id, role: Role)

  function Empty(): Database {
    Database(map[], map[], map[], 0)
  }

  // ---------------------------------------------------------------------------
  // The review schema.

  const MinRating: real := 1.0
  const MaxRating: real := 5.0
  const MinCommentLength: nat := 5
  const MaxCommentLength: nat := 500

  /** The schema's validators: a rating between 1 and 5 and a comment of 5 to
      500 characters. The schema trims the comment when it is assigned, so a
      stored comment is always trimmed. */
  predicate ReviewValid(r: Review) {
    && MinRating <= r.rating <= MaxRating
    && MinCommentLength <= |r.comment| <= MaxCommentLength
    && IsTrimmed(r.comment)
  }

  /** Builds a review the way the schema does on assignment (trimming the
      comment) and runs its validators; `None` means a validation error. */
  function MakeReview(restaurant: Id, user: Id, rating: real, comment: string, createdAt: int)
    : (r: Option<Review>)
    ensures r.Some? <==> MinRating <= rating <= MaxRating
                         && MinCommentLength <= |Trim(comment)| <= MaxCommentLength
    ensures r.Some? ==>
      ReviewValid(r.value) && r.value == Review(restaurant, user, rating, Trim(comment), createdAt)
  {
    var review := Review(restaurant, user, rating, Trim(comment), createdAt);
    if ReviewValid(review) then Some(review) else None
  }

  // ---------------------------------------------------------------------------
  // Invariants.

  ghost predicate IdsAllocated(db: Database) {
    && (forall id :: id in db.restaurants ==> id < db.nextId)
    && (forall id :: id in db.reviews ==> id < db.nextId)
    && (forall id :: id in db.users ==> id < db.nextId)
  }

  /** The unique (restaurant, user) index of the review collection. */
  ghost predicate ReviewsUnique(reviews: map<Id, Review>) {
    forall a, b :: a in reviews && b in reviews && a != b ==>
      reviews[a].restaurant != reviews[b].restaurant || reviews[a].user != reviews[b].user
  }

  /** Emails and usernames each identify at most one user. */
  ghost predicate UsersUnique(users: map<Id, User>) {
    forall a, b :: a in users && b in users && a != b ==>
      users[a].email != users[b].email && users[a].username != users[b].username
  }

  ghost predicate Valid(db: Database) {
    && IdsAllocated(db)
    && (forall id :: id in db.reviews ==> ReviewValid(db.reviews[id]))
    && ReviewsUnique(db.reviews)
    && UsersUnique(db.users)
  }

  lemma EmptyValid()
    ensures Valid(Empty())
  {
  }

  /** Whether `user` already reviewed `restaurant`. */
  predicate HasReviewed(db: Database, restaurant: Id, user: Id) {
    exists id :: id in db.reviews && db.reviews[id].restaurant == restaurant && db.reviews[id].user == user
  }

  /** Whether some user already has this email or this username. */
  predicate AccountTaken(db: Database, email: string, username: string) {
    exists id :: id in db.users && (db.users[id].email == email || db.users[id].username == username)
  }
}

=== FILE: rankings_view.dfy ===
/** The global leaderboard page (`RankingsComponent`): its state, what happens
    when the leaderboard arrives, and the include-set cuisine filter, where an
    empty set of chips means "show everything". */
module RankingsView {
  import opened Common
  import opened Seqs
  import opened Cuisines

  datatype RankingsState = RankingsState(
    rankings: seq<RankingItem>,
    filtered: seq<RankingItem>,
    totalCount: nat,
    loading: bool,
    error: string,
    showFilters: bool,
    availableCuisines: seq<string>,
    includedCuisines: set<string>)

  const NoRankingsMessage := "Nessuna classifica disponibile"
  const LoadFailedMessage := "Errore nel caricamento della classifica"

  /** The page before anything has loaded. */
  function Initial(): RankingsState {
    RankingsState([], [], 0, true, "", false, [], {})
  }

  /** Whether the filter shows entry `e` for the chips `included`. */
  predicate Shown(included: set<string>, e: RankingItem) {
    |included| == 0 || (HasCuisine(e) && e.cuisine.value in included)
  }

  /** `Shown` for fixed chips, as the predicate handed to `filter`. */
  function ShownBy(included: set<string>): RankingItem -> bool {
    e => Shown(included, e)
  }

  /** What `filtered` and `totalCount` must be for the loaded list and the
      chips: the shown entries of `rankings`, in order, each as often as it
      occurs there, and their number. */
  ghost predicate FilterConsistent(st: RankingsState) {
    && st.totalCount == |st.filtered|
    && IsSubsequence(st.filtered, st.rankings)
    && (forall i :: 0 <= i < |st.filtered| ==> Shown(st.includedCuisines, st.filtered[i]))
    && |st.filtered| == CountWhere(st.rankings, ShownBy(st.includedCuisines))
    && (forall i :: 0 <= i < |st.rankings| && Shown(st.includedCuisines, st.rankings[i]) ==>
          st.rankings[i] in st.filtered)
  }

  /** `FilterConsistent` leaves no choice: for given entries and chips there is
      exactly one consistent shown list, the filtered one. */
  lemma {:induction false} FilterConsistentUnique(st: RankingsState)
    requires FilterConsistent(st)
    ensures st.filtered == Filter(st.rankings, ShownBy(st.includedCuisines))
    ensures st.totalCount == CountWhere(st.rankings, ShownBy(st.includedCuisines))
  {
    FilterUnique(st.filtered, st.rankings, ShownBy(st.includedCuisines));
  }

  /** `applyFilters`: with no chip selected the whole list, otherwise the
      entries whose cuisine is one of the chips. */
  function ApplyFilters(st: RankingsState): (st': RankingsState)
    ensures FilterConsistent(st')
    ensures |st.includedCuisines| == 0 ==> st'.filtered == st.rankings && st'.totalCount == |st.rankings|
    ensures st' == st.(filtered := st'.filtered, totalCount := st'.totalCount)
  {
    var included := st.includedCuisines;
    var all := st.rankings;
    if |included| == 0 then
      FilterKeepsAll(all, ShownBy(included));
      st.(filtered := all, totalCount := |all|)
    else
      var filtered := Filter(all, ShownBy(included));
      st.(filtered := filtered, totalCount := |filtered|)
  }

  /** With chips selected, the page lists exactly the entries with one of those cuisines. */
  lemma FilteredWithChips(st: RankingsState, e: RankingItem)
    requires |st.includedCuisines| > 0
    requires e in st.rankings
    ensures e in ApplyFilters(st).filtered <==> HasCuisine(e) && e.cuisine.value in st.includedCuisines
  {
    var st' := ApplyFilters(st);
    if e in st'.filtered {
      var i :| 0 <= i < |st'.filtered| && st'.filtered[i] == e;
    }
  }

  /** `toggleCuisine`: flip one chip and filter again. */
  function ToggleCuisine(st: RankingsState, cuisine: string): (st': RankingsState)
    ensures cuisine in st'.includedCuisines <==> cuisine !in st.includedCuisines
    ensures forall c :: c != cuisine ==> (c in st'.includedCuisines <==> c in st.includedCuisines)
    ensures FilterConsistent(st')
    ensures st' == st.(includedCuisines := st'.includedCuisines, filtered := st'.filtered, totalCount := st'.totalCount)
  {
    ApplyFilters(st.(includedCuisines := Toggle(st.includedCuisines, cuisine)))
  }

  /** `isCuisineIncluded`: whether the chip is selected. */
  predicate IsCuisineIncluded(st: RankingsState, cuisine: string) {
    cuisine in st.includedCuisines
  }

  /** Pressing a chip twice restores the selection and the shown list. */
  lemma ToggleCuisineTwice(st: RankingsState, cuisine: string)
    ensures IsCuisineIncluded(ToggleCuisine(ToggleCuisine(st, cuisine), cuisine), cuisine)
        == IsCuisineIncluded(st, cuisine)
    ensures ToggleCuisine(ToggleCuisine(st, cuisine), cuisine) == ApplyFilters(st)
  {
    ToggleTwice(st.includedCuisines, cuisine);
  }

  /** `toggleFilters`: show or hide the chip panel. */
  function ToggleFilters(st: RankingsState): (st': RankingsState)
    ensures st'.showFilters != st.showFilters
    ensures st' == st.(showFilters := st'.showFilters)
  {
    st.(showFilters := !st.showFilters)
  }

  /** The success branch of `loadRankings`: store the list, offer its cuisines
      as chips, filter with the current chips, stop loading. */
  function OnRankingsLoaded(st: RankingsState, response: seq<RankingItem>): (st': RankingsState)
    ensures st'.rankings == response
    ensures StrictlySorted(st'.availableCuisines)
    ensures forall c :: c in st'.availableCuisines <==> c in NamedCuisines(response)
    ensures FilterConsistent(st')
    ensures !st'.loading
    ensures st'.includedCuisines == st.includedCuisines && st'.error == st.error
    ensures st' == st.(rankings := response, availableCuisines := st'.availableCuisines,
                       filtered := st'.filtered, totalCount := st'.totalCount, loading := false)
  {
    var st1 := st.(rankings := response, availableCuisines := CuisineList(response));
    ApplyFilters(st1).(loading := false)
  }

  /** The error branch of `loadRankings`: a 404 means there is no leaderboard yet. */
  function OnRankingsError(st: RankingsState, status: int): (st': RankingsState)
    ensures st'.error == (if status == 404 then NoRankingsMessage else LoadFailedMessage)
    ensures st'.error != ""
    ensures !st'.loading
    ensures st' == st.(error := st'.error, loading := false)
  {
    var message := if status == 404 then NoRankingsMessage else LoadFailedMessage;
    st.(error := message, loading := false)
  }
}

=== FILE: rating_display.dfy ===
/** How ratings are shown: the quarter-step label of the global leaderboard
    (`RankingsComponent.formatRating`) and the five-star strip
    (`getStarArray` in the rating utilities, and its copy in the ranking widget). */
module RatingDisplay {
  import opened Text
  import opened Seqs

  /** `Math.round`: the nearest integer, halves rounded up. */
  function Round(x: real): (n: int)
    ensures x - 0.5 < n as real <= x + 0.5
  {
    (x + 0.5).Floor
  }

  /** The quarter-step bucket of a rating: `Math.round(rating * 4)`, so the
      rating rounded to the nearest quarter is `Bucket(rating) / 4`. */
  function Bucket(rating: real): (q: int)
    ensures q as real / 4.0 - 0.125 <= rating < q as real / 4.0 + 0.125
  {
    Round(rating * 4.0)
  }

  /** The label shown for a rating. `Plus(w)` is "w+" (w and a quarter),
      `Minus(n)` is "n-" (n less a quarter), `OneDecimal(t)` is the rounded
      value `t / 10` written with one decimal. */
  datatype Label = Plus(whole: int) | Minus(next: int) | OneDecimal(tenths: int)

  /** The number a label stands for. */
  function Value(l: Label): real {
    match l
    case Plus(w) => w as real + 0.25
    case Minus(n) => n as real - 0.25
    case OneDecimal(t) => t as real / 10.0
  }

  /** `formatRating`: bucket to the nearest quarter, split the rounded value
      into its whole part and a remainder, and choose the label by the remainder. */
  function FormatRating(rating: real): (l: Label)
    ensures Value(l) == Bucket(rating) as real / 4.0
    ensures l.Plus? <==> Bucket(rating) % 4 == 1
    ensures l.Minus? <==> Bucket(rating) % 4 == 3
    ensures l.Plus? ==> l.whole as real == Value(l) - 0.25 && l.whole == (Value(l)).Floor
    ensures l.Minus? ==> l.next as real == Value(l) + 0.25 && l.next == (Value(l)).Floor + 1
  {
    var q := Bucket(rating);
    var whole := q / 4;
    var remainder := q % 4;
    if remainder == 1 then Plus(whole)
    else if remainder == 3 then Minus(whole + 1)
    else OneDecimal(q / 2 * 5)
  }

  /** Two ratings get the same label exactly when they fall in the same quarter bucket. */
  lemma SameLabelIffSameBucket(a: real, b: real)
    ensures FormatRating(a) == FormatRating(b) <==> Bucket(a) == Bucket(b)
  {
    if FormatRating(a) == FormatRating(b) {
      assert Value(FormatRating(a)) == Value(FormatRating(b));
    }
  }

  /** The label never strays from the rating by more than an eighth. */
  lemma LabelIsClose(rating: real)
    ensures -0.125 < Value(FormatRating(rating)) - rating <= 0.125
  {
  }

  // ---------------------------------------------------------------------------
  // The rendered text of a label.

  /** `toFixed(1)` of `t / 10` for an integer number of tenths `t`. */
  function FixedOneDecimal(t: int): (s: string)
    ensures '.' in s
    ensures IsDigit(s[|s| - 1])
  {
    var a := if t < 0 then -t else t;
    (if t < 0 then "-" else "") + NatToString(a / 10) + "." + [DigitChar(a % 10)]
  }

  /** Reading the text of `toFixed(1)` back gives the tenths it was made from:
      a sign exactly for negative values, whole digits, a point, one digit. */
  lemma {:induction false} FixedOneDecimalReadsBack(t: int)
    ensures var s := FixedOneDecimal(t);
      var start := if t < 0 then 1 else 0;
      && |s| >= start + 3
      && (t < 0 <==> s[0] == '-')
      && s[|s| - 2] == '.'
      && (forall i :: start <= i < |s| - 2 ==> IsDigit(s[i]))
      && 10 * ParseDigits(s[start..|s| - 2]) + (s[|s| - 1] as int - '0' as int) == (if t < 0 then -t else t)
  {
    var a := if t < 0 then -t else t;
    var s := FixedOneDecimal(t);
    var start := if t < 0 then 1 else 0;
    var w := NatToString(a / 10);
    assert s == (if t < 0 then "-" else "") + w + "." + [DigitChar(a % 10)];
    assert s[start..|s| - 2] == w;
    assert s[0] == (if t < 0 then '-' else w[0]);
    NatToStringRoundTrip(a / 10);
  }

  function Render(l: Label): (s: string)
    ensures |s| > 0
  {
    match l
    case Plus(w) => IntToString(w) + "+"
    case Minus(n) => IntToString(n) + "-"
    case OneDecimal(t) => FixedOneDecimal(t)
  }

  /** The text `formatRating` returns. */
  function FormatRatingText(rating: real): (s: string)
    ensures |s| > 0
    ensures s[|s| - 1] == '+' <==> Bucket(rating) % 4 == 1
    ensures s[|s| - 1] == '-' <==> Bucket(rating) % 4 == 3
    ensures IsDigit(s[|s| - 1]) <==> Bucket(rating) % 2 == 0
  {
    Render(FormatRating(rating))
  }

  /** The four worked cases of the leaderboard label. */
  lemma FormatRatingExamples()
    ensures FormatRatingText(4.0) == "4.0"
    ensures FormatRatingText(4.25) == "4+"
    ensures FormatRatingText(4.75) == "5-"
    ensures FormatRatingText(4.5) == "4.5"
  {
    assert Bucket(4.0) == 16;
    assert Bucket(4.25) == 17;
    assert Bucket(4.75) == 19;
    assert Bucket(4.5) == 18;
  }

  // ---------------------------------------------------------------------------
  // The five-star strip.

  const StarCount: nat := 5

  predicate IsFilled(x: int) {
    x == 1
  }

  function Clamp(n: int, lo: int, hi: int): int
    requires lo <= hi
  {
    if n < lo then lo else if n > hi then hi else n
  }

  /** A strip whose first `k` cells are 1 and whose other cells are 0 holds `k` ones. */
  lemma {:induction false} CountFilledPrefix(s: seq<int>, k: nat)
    requires k <= |s|
    requires forall i :: 0 <= i < |s| ==> s[i] == (if i < k then 1 else 0)
    ensures CountWhere(s, IsFilled) == k
  {
    if |s| > 0 {
      if k > 0 {
        CountFilledPrefix(s[1..], k - 1);
      } else {
        CountFilledPrefix(s[1..], 0);
      }
    }
  }

  /** `getStarArray(rating)`: cell `i` is 1 when `i < Math.round(rating)`. */
  function StarArray(rating: real): (stars: seq<int>)
    ensures |stars| == StarCount
    ensures forall i :: 0 <= i < |stars| ==> stars[i] == 0 || stars[i] == 1
    ensures forall i :: 0 <= i < |stars| ==> (stars[i] == 1 <==> i < Round(rating))
    ensures forall i :: 0 < i < |stars| ==> stars[i - 1] >= stars[i]
    ensures CountWhere(stars, IsFilled) == Clamp(Round(rating), 0, StarCount)
  {
    var stars := seq(StarCount, i => if i < Round(rating) then 1 else 0);
    CountFilledPrefix(stars, Clamp(Round(rating), 0, StarCount));
    stars
  }

  /** The ranking widget's own copy of `getStarArray`: start from five zeros
      and map each index to 1 when it lies below the rounded rating. */
  method WidgetStarArray(rating: real) returns (stars: seq<int>)
    ensures stars == StarArray(rating)
  {
    var filled := Round(rating);
    var zeros := seq(StarCount, _ => 0);
    stars := [];
    var i := 0;
    while i < |zeros|
      invariant 0 <= i <= |zeros|
      invariant stars == StarArray(rating)[..i]
    {
      stars := stars + [if i < filled then 1 else zeros[i]];
      i := i + 1;
    }
  }
}

=== FILE: restaurant_create.dfy ===
/** The new-restaurant page (`RestaurantCreateComponent`): a name is required,
    the other fields are optional, and the request is built from the boxes. */
module RestaurantCreate {
  import opened Common
  import opened Text

  const NameRequiredMessage := "Il nome del luogo è obbligatorio."
  const CreateFailedMessage := "Creazione del luogo fallita. Per favore riprova."

  datatype CreateState = CreateState(
    name: string,
    description: string,
    address: string,
    cuisine: string,
    error: string,
    loading: bool)

  /** The create-restaurant request body; a missing field is left out of the JSON. */
  datatype RestaurantPayload = RestaurantPayload(
    name: string,
    description: Option<string>,
    address: Option<string>,
    cuisine: Option<string>)

  /** `onSubmit` up to the request: a blank name only sets an error; otherwise
      the page is marked as loading, the error is cleared, and the request
      carries the name exactly as typed and each other box unless it is empty. */
  function OnSubmit(st: CreateState): (res: (CreateState, Option<RestaurantPayload>))
    ensures AllSpace(st.name) ==> res == (st.(error := NameRequiredMessage), None)
    ensures res.1.Some? <==> !AllSpace(st.name)
    ensures res.1.Some? ==>
      && res.0 == st.(loading := true, error := "")
      && res.1.value.name == st.name
      && (res.1.value.description.None? <==> st.description == "")
      && (res.1.value.address.None? <==> st.address == "")
      && (res.1.value.cuisine.None? <==> st.cuisine == "")
      && (res.1.value.description.Some? ==> res.1.value.description.value == st.description)
      && (res.1.value.address.Some? ==> res.1.value.address.value == st.address)
      && (res.1.value.cuisine.Some? ==> res.1.value.cuisine.value == st.cuisine)
  {
    if Trim(st.name) == "" then
      (st.(error := NameRequiredMessage), None)
    else
      var payload := RestaurantPayload(
        st.name, NonEmptyOrNone(st.description), NonEmptyOrNone(st.address), NonEmptyOrNone(st.cuisine));
      (st.(loading := true, error := ""), Some(payload))
  }

  /** A name with surrounding spaces is sent with its spaces. */
  lemma NameNotTrimmed()
    ensures OnSubmit(CreateState(" Da Mario ", "", "", "", "", false)).1
         == Some(RestaurantPayload(" Da Mario ", None, None, None))
  {
    var name := " Da Mario ";
    assert name[1] == 'D' && !IsSpace(name[1]);
  }

  /** The error branch: stop loading and show the server's message, or a default one. */
  function OnSubmitError(st: CreateState, serverMessage: Option<string>): (st': CreateState)
    ensures !st'.loading && st'.error != ""
    ensures Truthy(serverMessage) ==> st'.error == serverMessage.value
    ensures !Truthy(serverMessage) ==> st'.error == CreateFailedMessage
    ensures st' == st.(loading := false, error := st'.error)
  {
    st.(loading := false, error := OrElse(serverMessage, CreateFailedMessage))
  }
}

=== FILE: restaurant_routes.dfy ===
/** The restaurant routes: any signed-in user may list and read restaurants;
    only an admin or a superadmin may create, update or delete one. */
module RestaurantRoutes {
  import opened Common
  import opened Seqs
  import opened Db

  const RestaurantNotFound := "Restaurant not found"
  const NameRequired := "Restaurant name is required"

  /** The fields of a create or update request body; `None` is a field left out. */
  datatype RestaurantBody = RestaurantBody(
    name: Option<string>,
    description: Option<string>,
    address: Option<string>,
    cuisine: Option<string>)

  function CreatedAt(entry: (Id, Restaurant)): int {
    entry.1.createdAt
  }

  /** GET /: every restaurant, newest first. */
  function ListRestaurants(db: Database): (es: seq<(Id, Restaurant)>)
    ensures SortedDesc(es, CreatedAt)
    ensures forall e :: e in es ==> e.0 in db.restaurants && db.restaurants[e.0] == e.1
    ensures forall id :: id < db.nextId && id in db.restaurants ==> (id, db.restaurants[id]) in es
    ensures forall i, j :: 0 <= i < j < |es| ==> es[i].0 != es[j].0
  {
    SortedEntriesWhere(db.restaurants, db.nextId, (r: Restaurant) => true, CreatedAt)
  }

  /** In a valid database every id is allocated, so every restaurant is listed. */
  lemma ListRestaurantsComplete(db: Database)
    requires Valid(db)
    ensures forall id :: id in db.restaurants ==> (id, db.restaurants[id]) in ListRestaurants(db)
  {
  }

  /** GET /:id. */
  function GetRestaurant(db: Database, id: Id): (r: Outcome<Restaurant>)
    ensures id in db.restaurants <==> r.Ok?
    ensures r.Ok? ==> r.value == db.restaurants[id]
    ensures !r.Ok? ==> r == NotFound(RestaurantNotFound)
  {
    if id in db.restaurants then Ok(db.restaurants[id]) else NotFound(RestaurantNotFound)
  }

  /** POST /: an elevated caller with a non-empty name adds a restaurant
      recorded as created by the caller. */
  function CreateRestaurant(db: Database, caller: Caller, body: RestaurantBody, now: int)
    : (res: (Outcome<Id>, Database))
    ensures !IsElevated(caller.role) ==> res == (Denied, db)
    ensures IsElevated(caller.role) && !Truthy(body.name) ==> res == (BadRequest(NameRequired), db)
    ensures res.0.Created? <==> IsElevated(caller.role) && Truthy(body.name)
    ensures !res.0.Created? ==> res.1 == db
    ensures res.0.Created? && IdsAllocated(db) ==> res.0.value !in db.restaurants
    ensures res.0.Created? ==>
      && res.1.restaurants.Keys == db.restaurants.Keys + {res.0.value}
      && (forall id :: id in db.restaurants && id != res.0.value ==> res.1.restaurants[id] == db.restaurants[id])
      && res.1.restaurants[res.0.value]
         == Restaurant(body.name.value, body.description, body.address, body.cuisine, caller.userId, now)
      && res.1.reviews == db.reviews && res.1.users == db.users
  {
    if !IsElevated(caller.role) then (Denied, db)
    else if !Truthy(body.name) then (BadRequest(NameRequired), db)
    else
      var id := db.nextId;
      var restaurant := Restaurant(body.name.value, body.description, body.address, body.cuisine, caller.userId, now);
      (Created(id), db.(restaurants := db.restaurants[id := restaurant], nextId := id + 1))
  }

  /** The restaurant as changed by an update request: each field the request
      carries replaces the stored one. */
  function Patched(restaurant: Restaurant, body: RestaurantBody): (r: Restaurant)
    ensures r.name == (if body.name.Some? then body.name.value else restaurant.name)
    ensures r.description == (if body.description.Some? then body.description else restaurant.description)
    ensures r.address == (if body.address.Some? then body.address else restaurant.address)
    ensures r.cuisine == (if body.cuisine.Some? then body.cuisine else restaurant.cuisine)
    ensures r.createdBy == restaurant.createdBy && r.createdAt == restaurant.createdAt
  {
    restaurant.(
      name := body.name.GetOr(restaurant.name),
      description := if body.description.Some? then body.description else restaurant.description,
      address := if body.address.Some? then body.address else restaurant.address,
      cuisine := if body.cuisine.Some? then body.cuisine else restaurant.cuisine)
  }

  /** An update that carries no field changes nothing. */
  lemma EmptyPatchChangesNothing(restaurant: Restaurant)
    ensures Patched(restaurant, RestaurantBody(None, None, None, None)) == restaurant
  {
  }

  /** Applying the same update twice is the same as applying it once. */
  lemma PatchIdempotent(restaurant: Restaurant, body: RestaurantBody)
    ensures Patched(Patched(restaurant, body), body) == Patched(restaurant, body)
  {
  }

  /** PUT /:id. */
  function UpdateRestaurant(db: Database, caller: Caller, id: Id, body: RestaurantBody)
    : (res: (Outcome<Restaurant>, Database))
    ensures !IsElevated(caller.role) ==> res == (Denied, db)
    ensures IsElevated(caller.role) && id !in db.restaurants ==> res == (NotFound(RestaurantNotFound), db)
    ensures res.0.Ok? <==> IsElevated(caller.role) && id in db.restaurants
    ensures !res.0.Ok? ==> res.1 == db
    ensures res.0.Ok? ==>
      && res.0.value == Patched(db.restaurants[id], body)
      && res.1 == db.(restaurants := db.restaurants[id := res.0.value])
  {
    if !IsElevated(caller.role) then (Denied, db)
    else if id !in db.restaurants then (NotFound(RestaurantNotFound), db)
    else
      var patched := Patched(db.restaurants[id], body);
      (Ok(patched), db.(restaurants := db.restaurants[id := patched]))
  }

  /** DELETE /:id: removes exactly that restaurant; its reviews stay stored. */
  function DeleteRestaurant(db: Database, caller: Caller, id: Id): (res: (Outcome<()>, Database))
    ensures !IsElevated(caller.role) ==> res == (Denied, db)
    ensures IsElevated(caller.role) && id !in db.restaurants ==> res == (NotFound(RestaurantNotFound), db)
    ensures res.0.Ok? <==> IsElevated(caller.role) && id in db.restaurants
    ensures !res.0.Ok? ==> res.1 == db
    ensures res.0.Ok? ==>
      && res.1.restaurants.Keys == db.restaurants.Keys - {id}
      && (forall k :: k in res.1.restaurants ==> res.1.restaurants[k] == db.restaurants[k])
      && res.1.reviews == db.reviews && res.1.users == db.users
  {
    if !IsElevated(caller.role) then (Denied, db)
    else if id !in db.restaurants then (NotFound(RestaurantNotFound), db)
    else (Ok(()), db.(restaurants := db.restaurants - {id}))
  }

  /** A deleted restaurant's reviews are still listed by id: the handler does
      not cascade. */
  lemma DeleteLeavesReviews(db: Database, caller: Caller, id: Id, reviewId: Id)
    requires reviewId in db.reviews && db.reviews[reviewId].restaurant == id
    requires DeleteRestaurant(db, caller, id).0.Ok?
    ensures var db' := DeleteRestaurant(db, caller, id).1;
      id !in db'.restaurants && reviewId in db'.reviews && db'.reviews[reviewId].restaurant == id
  {
  }

  lemma {:induction false} CreateRestaurantKeepsValid(db: Database, caller: Caller, body: RestaurantBody, now: int)
    requires Valid(db)
    ensures Valid(CreateRestaurant(db, caller, body, now).1)
  {
    if IsElevated(caller.role) && Truthy(body.name) {
      var db' := CreateRestaurant(db, caller, body, now).1;
      assert db'.reviews == db.reviews && db'.users == db.users && db'.nextId == db.nextId + 1;
      assert IdsAllocated(db');
    }
  }

  lemma {:induction false} UpdateRestaurantKeepsValid(db: Database, caller: Caller, id: Id, body: RestaurantBody)
    requires Valid(db)
    ensures Valid(UpdateRestaurant(db, caller, id, body).1)
  {
    if IsElevated(caller.role) && id in db.restaurants {
      var db' := UpdateRestaurant(db, caller, id, body).1;
      assert db'.reviews == db.reviews && db'.users == db.users && db'.nextId == db.nextId;
      assert IdsAllocated(db');
    }
  }

  lemma {:induction false} DeleteRestaurantKeepsValid(db: Database, caller: Caller, id: Id)
    requires Valid(db)
    ensures Valid(DeleteRestaurant(db, caller, id).1)
  {
    if IsElevated(caller.role) && id in db.restaurants {
      var db' := DeleteRestaurant(db, caller, id).1;
      assert db'.reviews == db.reviews && db'.users == db.users && db'.nextId == db.nextId;
      assert IdsAllocated(db');
    }
  }
}

=== FILE: review_form.dfy ===
/** The review form on a restaurant's page (`RestaurantDetailComponent`):
    three sub-ratings and a comment, shown and hidden by a toggle, validated
    before a review request is sent, and reset after a successful send. */
module ReviewForm {
  import opened Common
  import opened Text

  const DefaultRating: real := 3.0
  const MinRating: real := 1.0
  const MaxRating: real := 5.0

  const MissingCommentMessage := "Please provide a comment"
  const SubmitFailedMessage := "Failed to submit review"

  datatype ReviewFormState = ReviewFormState(
    showReviewForm: bool,
    serviceRating: real,
    priceRating: real,
    menuRating: real,
    comment: string,
    submittingReview: bool,
    reviewError: string)

  /** The body of the create-review request this page sends. */
  datatype ReviewPayload = ReviewPayload(
    serviceRating: real,
    priceRating: real,
    menuRating: real,
    comment: string)

  /** A create-review request for the restaurant `restaurantId`. */
  datatype ReviewRequest = ReviewRequest(restaurantId: string, payload: ReviewPayload)

  function Initial(): (st: ReviewFormState)
    ensures !st.showReviewForm && !st.submittingReview
  {
    ReviewFormState(false, DefaultRating, DefaultRating, DefaultRating, "", false, "")
  }

  function Min3(a: real, b: real, c: real): real {
    if a <= b && a <= c then a else if b <= c then b else c
  }

  function Max3(a: real, b: real, c: real): real {
    if a >= b && a >= c then a else if b >= c then b else c
  }

  /** `calculateAverageRating`: the mean of the three sub-ratings of a review,
      unrounded; it lies between the smallest and the largest of them. */
  function AverageRating(service: real, price: real, menu: real): (avg: real)
    ensures 3.0 * avg == service + price + menu
    ensures Min3(service, price, menu) <= avg <= Max3(service, price, menu)
  {
    (service + price + menu) / 3.0
  }

  /** Sub-ratings within the form's slider range give an average in that range. */
  lemma AverageInRange(service: real, price: real, menu: real)
    requires MinRating <= service <= MaxRating
    requires MinRating <= price <= MaxRating
    requires MinRating <= menu <= MaxRating
    ensures MinRating <= AverageRating(service, price, menu) <= MaxRating
  {
  }

  /** `toggleReviewForm`: show or hide the form; an old error is cleared when it opens. */
  function ToggleReviewForm(st: ReviewFormState): (st': ReviewFormState)
    ensures st'.showReviewForm == !st.showReviewForm
    ensures st'.showReviewForm ==> st'.reviewError == ""
    ensures !st'.showReviewForm ==> st'.reviewError == st.reviewError
    ensures st' == st.(showReviewForm := st'.showReviewForm, reviewError := st'.reviewError)
  {
    var shown := !st.showReviewForm;
    st.(showReviewForm := shown, reviewError := if shown then "" else st.reviewError)
  }

  /** `resetReviewForm`: every rating back to the default, comment and error cleared. */
  function ResetReviewForm(st: ReviewFormState): (st': ReviewFormState)
    ensures st'.serviceRating == DefaultRating && st'.priceRating == DefaultRating
      && st'.menuRating == DefaultRating
    ensures st'.comment == "" && st'.reviewError == ""
    ensures st'.showReviewForm == st.showReviewForm && st'.submittingReview == st.submittingReview
  {
    st.(serviceRating := DefaultRating, priceRating := DefaultRating, menuRating := DefaultRating,
        comment := "", reviewError := "")
  }

  /** `submitReview` up to the request. A blank comment is refused with an
      error; without a loaded restaurant nothing happens; otherwise the form
      is marked as sending and the request carries the form's values. */
  function SubmitReview(st: ReviewFormState, restaurantId: Option<string>)
    : (res: (ReviewFormState, Option<ReviewRequest>))
    ensures AllSpace(st.comment) ==> res == (st.(reviewError := MissingCommentMessage), None)
    ensures !AllSpace(st.comment) && !Truthy(restaurantId) ==> res == (st, None)
    ensures res.1.Some? <==> !AllSpace(st.comment) && Truthy(restaurantId)
    ensures res.1.Some? ==>
      && res.1.value.restaurantId == restaurantId.value
      && res.1.value.payload
         == ReviewPayload(st.serviceRating, st.priceRating, st.menuRating, st.comment)
      && res.0 == st.(submittingReview := true, reviewError := "")
  {
    if Trim(st.comment) == "" then
      (st.(reviewError := MissingCommentMessage), None)
    else if !Truthy(restaurantId) then
      (st, None)
    else
      var payload := ReviewPayload(st.serviceRating, st.priceRating, st.menuRating, st.comment);
      (st.(submittingReview := true, reviewError := ""), Some(ReviewRequest(restaurantId.value, payload)))
  }

  /** The success branch: stop sending, hide the form and reset it (the list
      of reviews is then fetched again). */
  function OnSubmitSuccess(st: ReviewFormState): (st': ReviewFormState)
    ensures !st'.submittingReview && !st'.showReviewForm
    ensures st'.comment == "" && st'.reviewError == ""
    ensures st'.serviceRating == DefaultRating && st'.priceRating == DefaultRating
      && st'.menuRating == DefaultRating
  {
    ResetReviewForm(st.(submittingReview := false, showReviewForm := false))
  }

  /** The error branch: stop sending and show the server's message, or a default one. */
  function OnSubmitError(st: ReviewFormState, serverMessage: Option<string>): (st': ReviewFormState)
    ensures !st'.submittingReview
    ensures st'.reviewError != ""
    ensures Truthy(serverMessage) ==> st'.reviewError == serverMessage.value
    ensures !Truthy(serverMessage) ==> st'.reviewError == SubmitFailedMessage
    ensures st' == st.(submittingReview := false, reviewError := st'.reviewError)
  {
    st.(submittingReview := false, reviewError := OrElse(serverMessage, SubmitFailedMessage))
  }
}

=== FILE: review_routes.dfy ===
/** The review routes: list a restaurant's reviews, read one, create one per
    restaurant per user, update one's own, delete one's own (or any, for an
    admin or superadmin). Each handler maps a database and a request to an
    outcome and the database afterwards. */
module ReviewRoutes {
  import opened Common
  import opened Seqs
  import opened Db

  const RestaurantNotFound := "Restaurant not found"
  const ReviewNotFound := "Review not found"
  const RatingAndCommentRequired := "Rating and comment are required"
  const AlreadyReviewed := "You have already reviewed this restaurant"
  const OnlyOwnUpdate := "You can only update your own reviews"
  const OnlyOwnDelete := "You can only delete your own reviews"
  const CreateFailed := "Error creating review"
  const UpdateFailed := "Error updating review"

  /** The fields of a create or update request body; `None` is a missing field. */
  datatype ReviewBody = ReviewBody(rating: Option<real>, comment: Option<string>)

  /** JavaScript truthiness of the numeric rating: present and not zero. */
  predicate RatingTruthy(rating: Option<real>) {
    rating.Some? && rating.value != 0.0
  }

  function CreatedAt(entry: (Id, Review)): int {
    entry.1.createdAt
  }

  /** GET /restaurant/:restaurantId: the restaurant's reviews, newest first. */
  function ListReviews(db: Database, restaurantId: Id): (r: Outcome<seq<(Id, Review)>>)
    ensures restaurantId !in db.restaurants ==> r == NotFound(RestaurantNotFound)
    ensures restaurantId in db.restaurants ==> r.Ok?
    ensures r.Ok? ==> SortedDesc(r.value, CreatedAt)
    ensures r.Ok? ==> forall e :: e in r.value ==>
      e.0 in db.reviews && db.reviews[e.0] == e.1 && e.1.restaurant == restaurantId
    ensures r.Ok? ==> forall id :: id < db.nextId && id in db.reviews && db.reviews[id].restaurant == restaurantId ==>
      (id, db.reviews[id]) in r.value
    ensures r.Ok? ==> forall i, j :: 0 <= i < j < |r.value| ==> r.value[i].0 != r.value[j].0
  {
    if restaurantId !in db.restaurants then NotFound(RestaurantNotFound)
    else
      Ok(SortedEntriesWhere(db.reviews, db.nextId, (rv: Review) => rv.restaurant == restaurantId, CreatedAt))
  }

  /** In a valid database every id is allocated, so every review of the
      restaurant is listed. */
  lemma ListReviewsComplete(db: Database, restaurantId: Id)
    requires Valid(db)
    ensures ListReviews(db, restaurantId).Ok? ==>
      forall id :: id in db.reviews && db.reviews[id].restaurant == restaurantId ==>
        (id, db.reviews[id]) in ListReviews(db, restaurantId).value
  {
  }

  /** GET /:id. */
  function GetReview(db: Database, id: Id): (r: Outcome<Review>)
    ensures id in db.reviews <==> r.Ok?
    ensures r.Ok? ==> r.value == db.reviews[id]
    ensures !r.Ok? ==> r == NotFound(ReviewNotFound)
  {
    if id in db.reviews then Ok(db.reviews[id]) else NotFound(ReviewNotFound)
  }

  /** POST /restaurant/:restaurantId. The checks run in order: both fields
      truthy, the restaurant exists, the caller has not reviewed it yet, the
      review passes the schema. Only a success changes the database. */
  function CreateReview(db: Database, caller: Caller, restaurantId: Id, body: ReviewBody, now: int)
    : (res: (Outcome<Id>, Database))
    ensures !RatingTruthy(body.rating) || !Truthy(body.comment) ==>
      res == (BadRequest(RatingAndCommentRequired), db)
    ensures RatingTruthy(body.rating) && Truthy(body.comment) && restaurantId !in db.restaurants ==>
      res == (NotFound(RestaurantNotFound), db)
    ensures (RatingTruthy(body.rating) && Truthy(body.comment) && restaurantId in db.restaurants
             && HasReviewed(db, restaurantId, caller.userId)) ==>
      res == (BadRequest(AlreadyReviewed), db)
    ensures !res.0.Created? ==> res.1 == db
    ensures res.0.Created? && IdsAllocated(db) ==> res.0.value !in db.reviews
    ensures res.0.Created? ==>
      && res.1.reviews.Keys == db.reviews.Keys + {res.0.value}
      && (forall id :: id in db.reviews && id != res.0.value ==> res.1.reviews[id] == db.reviews[id])
      && res.1.reviews[res.0.value] == Review(restaurantId, caller.userId, body.rating.value,
                                              Text.Trim(body.comment.value), now)
      && ReviewValid(res.1.reviews[res.0.value])
      && res.1.restaurants == db.restaurants && res.1.users == db.users
    ensures res.0.Created? <==>
      && RatingTruthy(body.rating) && Truthy(body.comment)
      && restaurantId in db.restaurants && !HasReviewed(db, restaurantId, caller.userId)
      && MinRating <= body.rating.value <= MaxRating
      && MinCommentLength <= |Text.Trim(body.comment.value)| <= MaxCommentLength
    ensures (RatingTruthy(body.rating) && Truthy(body.comment) && restaurantId in db.restaurants
             && !HasReviewed(db, restaurantId, caller.userId) && !res.0.Created?) ==>
      res == (ServerError(CreateFailed), db)
  {
    if !RatingTruthy(body.rating) || !Truthy(body.comment) then
      (BadRequest(RatingAndCommentRequired), db)
    else if restaurantId !in db.restaurants then
      (NotFound(RestaurantNotFound), db)
    else if HasReviewed(db, restaurantId, caller.userId) then
      (BadRequest(AlreadyReviewed), db)
    else
      match MakeReview(restaurantId, caller.userId, body.rating.value, body.comment.value, now)
      case None => (ServerError(CreateFailed), db)
      case Some(review) =>
        var id := db.nextId;
        (Created(id), db.(reviews := db.reviews[id := review], nextId := id + 1))
  }

  /** The review as changed by an update request: each field is replaced only
      when the request carries it, and the comment is trimmed on assignment. */
  function Patched(review: Review, body: ReviewBody): (r: Review)
    ensures r.restaurant == review.restaurant && r.user == review.user && r.createdAt == review.createdAt
    ensures r.rating == (if body.rating.Some? then body.rating.value else review.rating)
    ensures body.comment.None? ==> r.comment == review.comment
    ensures body.comment.Some? ==> r.comment == Text.Trim(body.comment.value)
  {
    review.(rating := body.rating.GetOr(review.rating),
            comment := if body.comment.Some? then Text.Trim(body.comment.value) else review.comment)
  }

  /** PUT /:id. Only the owner may update, whatever the caller's role; the
      patched review must still pass the schema. */
  function UpdateReview(db: Database, caller: Caller, id: Id, body: ReviewBody)
    : (res: (Outcome<Review>, Database))
    ensures id !in db.reviews ==> res == (NotFound(ReviewNotFound), db)
    ensures id in db.reviews && db.reviews[id].user != caller.userId ==> res == (Forbidden(OnlyOwnUpdate), db)
    ensures res.0.Ok? <==> id in db.reviews && db.reviews[id].user == caller.userId
                           && ReviewValid(Patched(db.reviews[id], body))
    ensures id in db.reviews && db.reviews[id].user == caller.userId && !res.0.Ok? ==>
      res == (ServerError(UpdateFailed), db)
    ensures !res.0.Ok? ==> res.1 == db
    ensures res.0.Ok? ==>
      && res.1 == db.(reviews := db.reviews[id := res.0.value])
      && res.0.value == Patched(db.reviews[id], body)
      && ReviewValid(res.0.value)
  {
    if id !in db.reviews then (NotFound(ReviewNotFound), db)
    else
      var review := db.reviews[id];
      if review.user != caller.userId then (Forbidden(OnlyOwnUpdate), db)
      else
        var patched := Patched(review, body);
        if !ReviewValid(patched) then (ServerError(UpdateFailed), db)
        else (Ok(patched), db.(reviews := db.reviews[id := patched]))
  }

  /** DELETE /:id. The owner, an admin or a superadmin may delete. */
  function DeleteReview(db: Database, caller: Caller, id: Id): (res: (Outcome<()>, Database))
    ensures id !in db.reviews ==> res == (NotFound(ReviewNotFound), db)
    ensures res.0.Ok? <==> id in db.reviews && (db.reviews[id].user == caller.userId || IsElevated(caller.role))
    ensures id in db.reviews && !res.0.Ok? ==> res == (Forbidden(OnlyOwnDelete), db)
    ensures res.0.Ok? ==> res.1 == db.(reviews := db.reviews - {id})
    ensures !res.0.Ok? ==> res.1 == db
  {
    if id !in db.reviews then (NotFound(ReviewNotFound), db)
    else
      var isOwner := db.reviews[id].user == caller.userId;
      if !isOwner && !IsElevated(caller.role) then (Forbidden(OnlyOwnDelete), db)
      else (Ok(()), db.(reviews := db.reviews - {id}))
  }

  /** Storing a valid review under a fresh id, for a (restaurant, user) pair
      that has no review yet, keeps every database invariant. */
  lemma {:induction false} AddReviewKeepsValid(db: Database, review: Review)
    requires Valid(db)
    requires ReviewValid(review) && !HasReviewed(db, review.restaurant, review.user)
    ensures Valid(db.(reviews := db.reviews[db.nextId := review], nextId := db.nextId + 1))
  {
    var n := db.nextId;
    var db' := db.(reviews := db.reviews[n := review], nextId := n + 1);
    AddKeepsUnique(db, n, review);
    assert forall id :: id in db'.reviews ==> ReviewValid(db'.reviews[id]) by {
      forall id | id in db'.reviews ensures ReviewValid(db'.reviews[id]) {
        if id != n {
          assert db'.reviews[id] == db.reviews[id];
        }
      }
    }
  }

  /** Creating a review keeps every database invariant, in particular one
      review per (restaurant, user) pair. */
  lemma {:induction false} CreateReviewKeepsValid(db: Database, caller: Caller, restaurantId: Id, body: ReviewBody, now: int)
    requires Valid(db)
    ensures Valid(CreateReview(db, caller, restaurantId, body, now).1)
  {
    if RatingTruthy(body.rating) && Truthy(body.comment) && restaurantId in db.restaurants
       && !HasReviewed(db, restaurantId, caller.userId)
    {
      var made := MakeReview(restaurantId, caller.userId, body.rating.value, body.comment.value, now);
      if made.Some? {
        AddReviewKeepsValid(db, made.value);
      }
    }
  }

  /** Adding a fresh review by a user who has not reviewed that restaurant keeps the index unique. */
  lemma AddKeepsUnique(db: Database, n: Id, r: Review)
    requires ReviewsUnique(db.reviews)
    requires n !in db.reviews
    requires !HasReviewed(db, r.restaurant, r.user)
    ensures ReviewsUnique(db.reviews[n := r])
  {
    var m := db.reviews[n := r];
    forall a, b | a in m && b in m && a != b
      ensures m[a].restaurant != m[b].restaurant || m[a].user != m[b].user
    {
      if a != n && b != n {
        assert m[a] == db.reviews[a] && m[b] == db.reviews[b];
      }
    }
  }

  /** Replacing a review by one for the same restaurant and user keeps the index unique. */
  lemma ReplaceKeepsUnique(reviews: map<Id, Review>, id: Id, r: Review)
    requires ReviewsUnique(reviews)
    requires id in reviews && r.restaurant == reviews[id].restaurant && r.user == reviews[id].user
    ensures ReviewsUnique(reviews[id := r])
  {
    var m := reviews[id := r];
    forall a, b | a in m && b in m && a != b
      ensures m[a].restaurant != m[b].restaurant || m[a].user != m[b].user
    {
      assert m[a].restaurant == reviews[a].restaurant && m[a].user == reviews[a].user;
      assert m[b].restaurant == reviews[b].restaurant && m[b].user == reviews[b].user;
    }
  }

  /** Replacing a stored review by a valid one for the same restaurant and
      user keeps every database invariant. */
  lemma {:induction false} ReplaceReviewKeepsValid(db: Database, id: Id, r: Review)
    requires Valid(db)
    requires id in db.reviews && r.restaurant == db.reviews[id].restaurant && r.user == db.reviews[id].user
    requires ReviewValid(r)
    ensures Valid(db.(reviews := db.reviews[id := r]))
  {
    ReplaceKeepsUnique(db.reviews, id, r);
  }

  /** Updating a review keeps every database invariant. */
  lemma {:induction false} UpdateReviewKeepsValid(db: Database, caller: Caller, id: Id, body: ReviewBody)
    requires Valid(db)
    ensures Valid(UpdateReview(db, caller, id, body).1)
  {
    if id in db.reviews && db.reviews[id].user == caller.userId {
      var p := Patched(db.reviews[id], body);
      if ReviewValid(p) {
        ReplaceReviewKeepsValid(db, id, p);
      }
    }
  }

  /** Deleting a review keeps every database invariant. */
  lemma DeleteReviewKeepsValid(db: Database, caller: Caller, id: Id)
    requires Valid(db)
    ensures Valid(DeleteReview(db, caller, id).1)
  {
  }

  /** A second review of the same restaurant by the same user is always refused. */
  lemma NoSecondReview(db: Database, caller: Caller, restaurantId: Id, first: ReviewBody, second: ReviewBody,
                       t1: int, t2: int)
    requires CreateReview(db, caller, restaurantId, first, t1).0.Created?
    ensures !CreateReview(CreateReview(db, caller, restaurantId, first, t1).1, caller, restaurantId, second, t2).0.Created?
  {
    var (out, db1) := CreateReview(db, caller, restaurantId, first, t1);
    assert HasReviewed(db1, restaurantId, caller.userId) by {
      assert db1.reviews[out.value].restaurant == restaurantId;
    }
  }
}

=== FILE: seqs.dfy ===
/** Sequence operations the application takes from the JavaScript runtime or the
    database: `Array.prototype.filter`, counting, sorting on a key in
    descending order, and enumerating the stored documents that match a query. */
module Seqs {
  import opened Common

  /** `xs` is `ys` with some elements left out and the rest kept in order. */
  ghost predicate IsSubsequence<T>(xs: seq<T>, ys: seq<T>)
    decreases |ys|
  {
    |xs| == 0
    || (|ys| > 0
        && ((xs[0] == ys[0] && IsSubsequence(xs[1..], ys[1..])) || IsSubsequence(xs, ys[1..])))
  }

  /** Number of elements of `s` that satisfy `p`. */
  function CountWhere<T>(s: seq<T>, p: T -> bool): (n: nat)
    ensures n <= |s|
  {
    if |s| == 0 then 0 else (if p(s[0]) then 1 else 0) + CountWhere(s[1..], p)
  }

  /** `s.filter(p)`: the elements that satisfy `p`, each as often as in `s`, in order. */
  function Filter<T>(s: seq<T>, p: T -> bool): (r: seq<T>)
    ensures |r| == CountWhere(s, p)
    ensures IsSubsequence(r, s)
    ensures forall i :: 0 <= i < |r| ==> p(r[i])
    ensures forall i :: 0 <= i < |s| && p(s[i]) ==> s[i] in r
  {
    if |s| == 0 then []
    else if p(s[0]) then [s[0]] + Filter(s[1..], p)
    else Filter(s[1..], p)
  }

  /** Filtering with a predicate every element satisfies returns the input. */
  lemma {:induction false} FilterKeepsAll<T>(s: seq<T>, p: T -> bool)
    requires forall i :: 0 <= i < |s| ==> p(s[i])
    ensures Filter(s, p) == s
  {
    if |s| > 0 {
      FilterKeepsAll(s[1..], p);
      assert s == [s[0]] + s[1..];
    }
  }

  /** A subsequence of `s` made of elements satisfying `p` has at most as many
      elements as `s` has matching ones. */
  lemma {:induction false} SubsequenceCount<T>(r: seq<T>, s: seq<T>, p: T -> bool)
    requires IsSubsequence(r, s)
    requires forall i :: 0 <= i < |r| ==> p(r[i])
    ensures |r| <= CountWhere(s, p)
    decreases |s|
  {
    if |r| > 0 {
      if r[0] == s[0] && IsSubsequence(r[1..], s[1..]) {
        SubsequenceCount(r[1..], s[1..], p);
      } else {
        SubsequenceCount(r, s[1..], p);
      }
    }
  }

  /** The three clauses of `Filter`'s contract fix its result: any subsequence
      of `s` of matching elements as long as the count of matches is the
      filtered list. */
  lemma {:induction false} FilterUnique<T>(r: seq<T>, s: seq<T>, p: T -> bool)
    requires IsSubsequence(r, s)
    requires forall i :: 0 <= i < |r| ==> p(r[i])
    requires |r| == CountWhere(s, p)
    ensures r == Filter(s, p)
    decreases |s|
  {
    if |r| == 0 {
      assert |Filter(s, p)| == 0;
    } else if r[0] == s[0] && IsSubsequence(r[1..], s[1..]) {
      FilterUnique(r[1..], s[1..], p);
      assert r == [r[0]] + r[1..];
    } else {
      assert IsSubsequence(r, s[1..]);
      if p(s[0]) {
        SubsequenceCount(r, s[1..], p);
        assert false;
      }
      FilterUnique(r, s[1..], p);
    }
  }

  // ---------------------------------------------------------------------------
  // Sorting on an integer key, largest first (`.sort({ createdAt: -1 })`).

  predicate SortedDesc<T>(s: seq<T>, key: T -> int) {
    forall i :: 0 < i < |s| ==> key(s[i - 1]) >= key(s[i])
  }

  /** No element occurs twice. */
  predicate Distinct<T(==)>(s: seq<T>) {
    forall i, j :: 0 <= i < j < |s| ==> s[i] != s[j]
  }

  function InsertDesc<T>(x: T, s: seq<T>, key: T -> int): (r: seq<T>)
    requires SortedDesc(s, key)
    ensures SortedDesc(r, key)
    ensures multiset(r) == multiset(s) + multiset{x}
    ensures r[0] == x || (|s| > 0 && r[0] == s[0])
  {
    if |s| == 0 || key(x) >= key(s[0]) then [x] + s
    else
      var rest := InsertDesc(x, s[1..], key);
      assert s == [s[0]] + s[1..];
      [s[0]] + rest
  }

  /** Insertion sort on `key`, largest first. */
  function SortDesc<T>(s: seq<T>, key: T -> int): (r: seq<T>)
    ensures SortedDesc(r, key)
    ensures multiset(r) == multiset(s)
  {
    if |s| == 0 then []
    else
      assert s == [s[0]] + s[1..];
      InsertDesc(s[0], SortDesc(s[1..], key), key)
  }

  /** Putting a new element in front of distinct elements keeps them distinct. */
  lemma ConsDistinct<T>(a: T, t: seq<T>)
    requires Distinct(t) && a !in t
    ensures Distinct([a] + t)
  {
    var r := [a] + t;
    forall i, j | 0 <= i < j < |r|
      ensures r[i] != r[j]
    {
      assert r[j] == t[j - 1];
      if i > 0 {
        assert r[i] == t[i - 1];
      }
    }
  }

  /** Inserting an element not yet present keeps the elements distinct. */
  lemma {:induction false} InsertDescDistinct<T>(x: T, s: seq<T>, key: T -> int)
    requires SortedDesc(s, key) && Distinct(s) && x !in s
    ensures Distinct(InsertDesc(x, s, key))
  {
    if |s| == 0 || key(x) >= key(s[0]) {
      ConsDistinct(x, s);
    } else {
      var rest := InsertDesc(x, s[1..], key);
      InsertDescDistinct(x, s[1..], key);
      assert s[0] !in rest by {
        assert s == [s[0]] + s[1..];
        assert s[0] !in s[1..];
        assert s[0] != x;
        assert s[0] in rest <==> s[0] in multiset(rest);
      }
      ConsDistinct(s[0], rest);
    }
  }

  /** Sorting distinct elements yields distinct elements. */
  lemma {:induction false} SortDescDistinct<T>(s: seq<T>, key: T -> int)
    requires Distinct(s)
    ensures Distinct(SortDesc(s, key))
  {
    if |s| > 0 {
      SortDescDistinct(s[1..], key);
      var sorted := SortDesc(s[1..], key);
      assert s[0] !in sorted by {
        assert s[0] !in s[1..];
        assert multiset(sorted) == multiset(s[1..]);
        assert s[0] in sorted <==> s[0] in multiset(sorted);
      }
      InsertDescDistinct(s[0], sorted, key);
    }
  }

  /** In a list of distinct (id, document) pairs taken from one map, no id occurs twice. */
  lemma DistinctEntriesHaveDistinctIds<T>(es: seq<(Id, T)>, m: map<Id, T>)
    requires Distinct(es)
    requires forall i :: 0 <= i < |es| ==> es[i].0 in m && m[es[i].0] == es[i].1
    ensures forall i, j :: 0 <= i < j < |es| ==> es[i].0 != es[j].0
  {
    forall i, j | 0 <= i < j < |es|
      ensures es[i].0 != es[j].0
    {
      assert es[i] != es[j];
    }
  }

  // ---------------------------------------------------------------------------
  // Enumerating stored documents: ids below `n`, in ascending order.

  predicate StrictlyIncreasing(ids: seq<Id>) {
    forall i, j :: 0 <= i < j < |ids| ==> ids[i] < ids[j]
  }

  /** The ids below `n` of the documents in `m` that satisfy `p`, in ascending order. */
  function IdsWhere<T>(m: map<Id, T>, n: nat, p: T -> bool): (ids: seq<Id>)
    ensures StrictlyIncreasing(ids)
    ensures forall i :: 0 <= i < |ids| ==> ids[i] < n && ids[i] in m && p(m[ids[i]])
    ensures forall id :: id < n && id in m && p(m[id]) ==> id in ids
  {
    if n == 0 then []
    else
      var rest := IdsWhere(m, n - 1, p);
      if n - 1 in m && p(m[n - 1]) then rest + [n - 1] else rest
  }

  /** The (id, document) pairs of `m` with ids below `n` whose document
      satisfies `p`, in ascending id order (`find(query)` in natural order). */
  function EntriesWhere<T>(m: map<Id, T>, n: nat, p: T -> bool): (es: seq<(Id, T)>)
    ensures forall i, j :: 0 <= i < j < |es| ==> es[i].0 < es[j].0
    ensures forall i :: 0 <= i < |es| ==> es[i].0 < n && es[i].0 in m && m[es[i].0] == es[i].1 && p(es[i].1)
    ensures forall id :: id < n && id in m && p(m[id]) ==> (id, m[id]) in es
  {
    var ids := IdsWhere(m, n, p);
    var es := seq(|ids|, i requires 0 <= i < |ids| => (ids[i], m[ids[i]]));
    assert forall id :: id in ids ==> (id, m[id]) in es by {
      forall id | id in ids ensures (id, m[id]) in es {
        var i :| 0 <= i < |ids| && ids[i] == id;
        assert es[i] == (id, m[id]);
      }
    }
    es
  }

  /** A reordering of a list of (id, document) pairs holds the same pairs. */
  lemma PermutedEntries<T>(entries: seq<(Id, T)>, sorted: seq<(Id, T)>, m: map<Id, T>, n: nat, p: T -> bool)
    requires multiset(sorted) == multiset(entries)
    requires forall i :: 0 <= i < |entries| ==>
      entries[i].0 < n && entries[i].0 in m && m[entries[i].0] == entries[i].1 && p(entries[i].1)
    requires forall id :: id < n && id in m && p(m[id]) ==> (id, m[id]) in entries
    ensures forall e :: e in sorted ==> e.0 < n && e.0 in m && m[e.0] == e.1 && p(e.1)
    ensures forall id :: id < n && id in m && p(m[id]) ==> (id, m[id]) in sorted
  {
    forall e | e in sorted
      ensures e.0 < n && e.0 in m && m[e.0] == e.1 && p(e.1)
    {
      assert e in multiset(sorted);
      assert e in entries;
      var i :| 0 <= i < |entries| && entries[i] == e;
    }
    forall id | id < n && id in m && p(m[id])
      ensures (id, m[id]) in sorted
    {
      assert (id, m[id]) in multiset(entries);
    }
  }

  /** The same pairs as `EntriesWhere`, each once, ordered by `key` largest
      first (`find(query).sort({ key: -1 })`). */
  function SortedEntriesWhere<T>(m: map<Id, T>, n: nat, p: T -> bool, key: ((Id, T)) -> int)
    : (es: seq<(Id, T)>)
    ensures SortedDesc(es, key)
    ensures forall e :: e in es ==> e.0 < n && e.0 in m && m[e.0] == e.1 && p(e.1)
    ensures forall id :: id < n && id in m && p(m[id]) ==> (id, m[id]) in es
    ensures forall i, j :: 0 <= i < j < |es| ==> es[i].0 != es[j].0
  {
    var entries: seq<(Id, T)> := EntriesWhere(m, n, p);
    var sorted := SortDesc<(Id, T)>(entries, key);
    PermutedEntries(entries, sorted, m, n, p);
    SortDescDistinct<(Id, T)>(entries, key);
    DistinctEntriesHaveDistinctIds(sorted, m);
    sorted
  }

  /** The smallest id below `n` of a document in `m` that satisfies `p` (`findOne`). */
  function FindFirst<T>(m: map<Id, T>, n: nat, p: T -> bool): (r: Option<Id>)
    ensures r.Some? ==> r.value < n && r.value in m && p(m[r.value])
    ensures r.None? <==> forall id :: id < n && id in m ==> !p(m[id])
  {
    var ids := IdsWhere(m, n, p);
    if |ids| == 0 then None else Some(ids[0])
  }
}

=== FILE: settings_form.dfy ===
/** The settings page (`SettingsComponent`): the display-name box, the role
    checks that decide which sections show, and the form an admin uses to
    create a user or, for a superadmin, another admin. */
module SettingsForm {
  import opened Common

  /** The signed-in user as the frontend keeps it. */
  datatype CurrentUser = CurrentUser(id: string, username: string, role: Role, displayName: Option<string>)

  /** The role picked in the creation form. */
  datatype NewUserRole = NewUser | NewAdmin

  datatype SettingsState = SettingsState(
    displayName: string,
    loading: bool,
    successMessage: string,
    errorMessage: string,
    showUserForm: bool,
    newUsername: string,
    newEmail: string,
    newPassword: string,
    newUserRole: NewUserRole,
    creatingUser: bool,
    userCreationSuccess: string,
    userCreationError: string)

  /** The account-creation request the form sends. */
  datatype CreateRequest =
    | CreateAdmin(username: string, email: string, password: string)
    | CreateUser(username: string, email: string, password: string)

  const AllFieldsRequiredMessage := "Tutti i campi sono richiesti"
  const NameUpdatedMessage := "Nome aggiornato con successo!"
  const NameUpdateFailedMessage := "Aggiornamento del nome fallito. Per favore riprova."
  const CreationFailedMessage := "Creazione dell'utente fallita. Per favore riprova."

  function Initial(): SettingsState {
    SettingsState("", false, "", "", false, "", "", "", NewUser, false, "", "")
  }

  /** `ngOnInit`: without a signed-in user the page sends the browser to
      /login (`None`); otherwise the box starts with the user's display name. */
  function Init(st: SettingsState, user: Option<CurrentUser>): (r: Option<SettingsState>)
    ensures user.None? <==> r.None?
    ensures r.Some? && Truthy(user.value.displayName) ==> r.value.displayName == user.value.displayName.value
    ensures r.Some? && !Truthy(user.value.displayName) ==> r.value.displayName == ""
    ensures r.Some? ==> r.value == st.(displayName := r.value.displayName)
  {
    match user
    case None => None
    case Some(u) => Some(st.(displayName := OrElse(u.displayName, "")))
  }

  /** `canManageUsers`: the user-creation section is shown to admins and superadmins. */
  predicate CanManageUsers(user: Option<CurrentUser>) {
    user.Some? && (user.value.role == AdminRole || user.value.role == SuperAdminRole)
  }

  /** `isSuperAdmin`: only a superadmin may pick the admin role. */
  predicate IsSuperAdmin(user: Option<CurrentUser>) {
    user.Some? && user.value.role == SuperAdminRole
  }

  /** A superadmin can always manage users; the converse fails for admins. */
  lemma SuperAdminCanManage(user: Option<CurrentUser>)
    ensures IsSuperAdmin(user) ==> CanManageUsers(user)
    ensures CanManageUsers(user) <==> user.Some? && IsElevated(user.value.role)
  {
  }

  /** `resetUserForm`: empty fields, no messages, role back to "user". */
  function ResetUserForm(st: SettingsState): (st': SettingsState)
    ensures st'.newUsername == "" && st'.newEmail == "" && st'.newPassword == ""
    ensures st'.newUserRole == NewUser
    ensures st'.userCreationSuccess == "" && st'.userCreationError == ""
    ensures st'.showUserForm == st.showUserForm && st'.creatingUser == st.creatingUser
    ensures st'.displayName == st.displayName
    ensures st' == st.(newUsername := st'.newUsername, newEmail := st'.newEmail, newPassword := st'.newPassword,
                       newUserRole := st'.newUserRole, userCreationSuccess := st'.userCreationSuccess,
                       userCreationError := st'.userCreationError)
  {
    st.(newUsername := "", newEmail := "", newPassword := "", newUserRole := NewUser,
        userCreationSuccess := "", userCreationError := "")
  }

  /** `toggleUserForm`: opening the form starts it afresh; closing it keeps its fields. */
  function ToggleUserForm(st: SettingsState): (st': SettingsState)
    ensures st'.showUserForm == !st.showUserForm
    ensures st'.showUserForm ==> st' == ResetUserForm(st).(showUserForm := true)
    ensures !st'.showUserForm ==> st' == st.(showUserForm := false)
  {
    var shown := !st.showUserForm;
    var st1 := st.(showUserForm := shown);
    if shown then ResetUserForm(st1) else st1
  }

  /** `createNewUser` up to the request: an empty field only sets an error;
      otherwise the admin role goes to create-admin and any other to create-user,
      with the fields as typed. */
  function CreateNewUser(st: SettingsState): (res: (SettingsState, Option<CreateRequest>))
    ensures st.newUsername == "" || st.newEmail == "" || st.newPassword == "" ==>
      res == (st.(userCreationError := AllFieldsRequiredMessage), None)
    ensures res.1.Some? <==> st.newUsername != "" && st.newEmail != "" && st.newPassword != ""
    ensures res.1.Some? ==>
      && res.1.value.username == st.newUsername
      && res.1.value.email == st.newEmail
      && res.1.value.password == st.newPassword
      && (res.1.value.CreateAdmin? <==> st.newUserRole == NewAdmin)
      && res.0 == st.(creatingUser := true, userCreationSuccess := "", userCreationError := "")
  {
    if st.newUsername == "" || st.newEmail == "" || st.newPassword == "" then
      (st.(userCreationError := AllFieldsRequiredMessage), None)
    else
      var st1 := st.(creatingUser := true, userCreationSuccess := "", userCreationError := "");
      var request :=
        if st.newUserRole == NewAdmin then CreateAdmin(st.newUsername, st.newEmail, st.newPassword)
        else CreateUser(st.newUsername, st.newEmail, st.newPassword);
      (st1, Some(request))
  }

  /** The success message names the kind of account created. */
  function CreatedMessage(role: NewUserRole): string {
    (if role == NewAdmin then "Admin" else "User") + " creato con successo!"
  }

  /** The success branch (the delayed reset that follows is not modelled). */
  function OnCreateSuccess(st: SettingsState): (st': SettingsState)
    ensures !st'.creatingUser
    ensures st'.userCreationSuccess == CreatedMessage(st.newUserRole)
    ensures st' == st.(creatingUser := false, userCreationSuccess := st'.userCreationSuccess)
  {
    st.(creatingUser := false, userCreationSuccess := CreatedMessage(st.newUserRole))
  }

  /** The error branch: the server's message, or a default one. */
  function OnCreateError(st: SettingsState, serverMessage: Option<string>): (st': SettingsState)
    ensures !st'.creatingUser
    ensures st'.userCreationError != ""
    ensures Truthy(serverMessage) ==> st'.userCreationError == serverMessage.value
    ensures !Truthy(serverMessage) ==> st'.userCreationError == CreationFailedMessage
    ensures st' == st.(creatingUser := false, userCreationError := st'.userCreationError)
  {
    st.(creatingUser := false, userCreationError := OrElse(serverMessage, CreationFailedMessage))
  }

  /** `updateDisplayName` up to the request: mark loading, clear both messages,
      send the name as it is in the box. */
  function UpdateDisplayName(st: SettingsState): (res: (SettingsState, string))
    ensures res.1 == st.displayName
    ensures res.0.loading && res.0.successMessage == "" && res.0.errorMessage == ""
    ensures res.0 == st.(loading := true, successMessage := "", errorMessage := "")
  {
    (st.(loading := true, successMessage := "", errorMessage := ""), st.displayName)
  }

  function OnDisplayNameUpdated(st: SettingsState): (st': SettingsState)
    ensures !st'.loading && st'.successMessage == NameUpdatedMessage
    ensures st' == st.(loading := false, successMessage := NameUpdatedMessage)
  {
    st.(loading := false, successMessage := NameUpdatedMessage)
  }

  function OnDisplayNameError(st: SettingsState, serverMessage: Option<string>): (st': SettingsState)
    ensures !st'.loading && st'.errorMessage != ""
    ensures Truthy(serverMessage) ==> st'.errorMessage == serverMessage.value
    ensures !Truthy(serverMessage) ==> st'.errorMessage == NameUpdateFailedMessage
    ensures st' == st.(loading := false, errorMessage := st'.errorMessage)
  {
    st.(loading := false, errorMessage := OrElse(serverMessage, NameUpdateFailedMessage))
  }
}

=== FILE: superadmin_guard.dfy ===
/** The route guard in front of the superadmin-only pages (`superadminGuard`). */
module SuperadminGuard {
  import opened Common

  /** Where the guard sends a refused visitor. */
  datatype Navigation = ToLogin(returnUrl: string) | ToRestaurants

  /** The guard's answer and the navigation it starts, if any. */
  datatype GuardResult = GuardResult(allow: bool, navigation: Option<Navigation>)

  /** `isAuthenticated` and the current user's role are two separate pieces of
      the frontend's auth state; `role` is `None` when there is no current user. */
  function Guard(isAuthenticated: bool, role: Option<Role>, url: string): (r: GuardResult)
    ensures r.allow <==> isAuthenticated && role == Some(SuperAdminRole)
    ensures r.allow ==> r.navigation.None?
    ensures !isAuthenticated ==> !r.allow && r.navigation == Some(ToLogin(url))
    ensures isAuthenticated && role != Some(SuperAdminRole) ==>
      !r.allow && r.navigation == Some(ToRestaurants)
  {
    if isAuthenticated && role == Some(SuperAdminRole) then GuardResult(true, None)
    else if !isAuthenticated then GuardResult(false, Some(ToLogin(url)))
    else GuardResult(false, Some(ToRestaurants))
  }

  /** Every refusal navigates somewhere, and only refusals do. */
  lemma RefusalNavigates(isAuthenticated: bool, role: Option<Role>, url: string)
    ensures !Guard(isAuthenticated, role, url).allow <==> Guard(isAuthenticated, role, url).navigation.Some?
  {
  }
}

=== FILE: text.dfy ===
/** String helpers the application borrows from the JavaScript runtime:
    `String.prototype.trim`, the decimal rendering of integers, and the
    default ordering used by `Array.prototype.sort` on strings. */
module Text {

  /** The code points `trim` removes: ECMAScript WhiteSpace and LineTerminator. */
  predicate IsSpace(c: char) {
    var n := c as int;
    n == 0x09 || n == 0x0A || n == 0x0B || n == 0x0C || n == 0x0D || n == 0x20
    || n == 0xA0 || n == 0x1680 || (0x2000 <= n <= 0x200A) || n == 0x2028
    || n == 0x2029 || n == 0x202F || n == 0x205F || n == 0x3000 || n == 0xFEFF
  }

  predicate AllSpace(s: string) {
    forall i :: 0 <= i < |s| ==> IsSpace(s[i])
  }

  /** Number of whitespace characters at the front of `s`. */
  function LeadingSpaces(s: string): (k: nat)
    ensures k <= |s|
    ensures forall i :: 0 <= i < k ==> IsSpace(s[i])
    ensures k < |s| ==> !IsSpace(s[k])
  {
    if |s| == 0 || !IsSpace(s[0]) then 0 else 1 + LeadingSpaces(s[1..])
  }

  /** Number of whitespace characters at the back of `s`. */
  function TrailingSpaces(s: string): (k: nat)
    ensures k <= |s|
    ensures forall i :: |s| - k <= i < |s| ==> IsSpace(s[i])
    ensures k < |s| ==> !IsSpace(s[|s| - 1 - k])
  {
    if |s| == 0 || !IsSpace(s[|s| - 1]) then 0 else 1 + TrailingSpaces(s[..|s| - 1])
  }

  /** Neither starts nor ends with whitespace. */
  predicate IsTrimmed(s: string) {
    s == "" || (!IsSpace(s[0]) && !IsSpace(s[|s| - 1]))
  }

  /** `s.trim()`: `s` without its leading and trailing whitespace. */
  function Trim(s: string): (r: string)
    ensures |r| <= |s|
    ensures r == "" <==> AllSpace(s)
    ensures IsTrimmed(r)
    ensures !AllSpace(s) ==> r == s[LeadingSpaces(s)..|s| - TrailingSpaces(s)]
  {
    var a := LeadingSpaces(s);
    if a == |s| then
      ""
    else
      var b := TrailingSpaces(s);
      assert !IsSpace(s[a]);
      assert b < |s| - a;
      s[a..|s| - b]
  }

  /** A string is left alone by `trim` exactly when it is trimmed. */
  lemma TrimFixesTrimmed(s: string)
    ensures Trim(s) == s <==> IsTrimmed(s)
  {
    if IsTrimmed(s) && s != "" {
      assert LeadingSpaces(s) == 0;
      assert TrailingSpaces(s) == 0;
    }
  }

  /** Whitespace around a trimmed core is exactly what `trim` removes: the
      result is determined by the three parts, not by how `Trim` finds them. */
  lemma {:induction false} TrimStripsPadding(front: string, core: string, back: string)
    requires AllSpace(front) && AllSpace(back)
    requires core != "" && IsTrimmed(core)
    ensures Trim(front + core + back) == core
  {
    var s := front + core + back;
    assert s[|front|] == core[0];
    assert s[|front| + |core| - 1] == core[|core| - 1];
    assert LeadingSpaces(s) == |front|;
    assert TrailingSpaces(s) == |back|;
    assert !AllSpace(s);
    assert s[|front|..|s| - |back|] == core;
  }

  // ---------------------------------------------------------------------------
  // Decimal rendering of integers (`${n}` in a template literal).

  function DigitChar(d: nat): (c: char)
    requires d < 10
    ensures '0' <= c <= '9'
    ensures c as int - '0' as int == d
  {
    ('0' as int + d) as char
  }

  predicate IsDigit(c: char) {
    '0' <= c <= '9'
  }

  /** The decimal digits of `n`, most significant first, without leading zeros. */
  function NatToString(n: nat): (s: string)
    ensures |s| > 0
    ensures forall i :: 0 <= i < |s| ==> IsDigit(s[i])
    ensures |s| > 1 ==> s[0] != '0'
  {
    if n < 10 then [DigitChar(n)] else NatToString(n / 10) + [DigitChar(n % 10)]
  }

  /** `${n}` for an integer: a minus sign before the digits of a negative value. */
  function IntToString(n: int): (s: string)
    ensures |s| > 0
    ensures n < 0 <==> s[0] == '-'
  {
    if n < 0 then "-" + NatToString(-n) else NatToString(n)
  }

  /** The value of a non-empty string of decimal digits. */
  function ParseDigits(s: string): nat
    requires forall i :: 0 <= i < |s| ==> IsDigit(s[i])
  {
    if |s| == 0 then 0
    else
      assert IsDigit(s[|s| - 1]);
      10 * ParseDigits(s[..|s| - 1]) + (s[|s| - 1] as int - '0' as int)
  }

  /** Reading the rendered digits back gives the number: the rendering loses nothing. */
  lemma {:induction false} NatToStringRoundTrip(n: nat)
    ensures ParseDigits(NatToString(n)) == n
  {
    if n >= 10 {
      var s := NatToString(n);
      assert s[..|s| - 1] == NatToString(n / 10);
      NatToStringRoundTrip(n / 10);
    }
  }

  // ---------------------------------------------------------------------------
  // The order `Array.prototype.sort()` puts strings in: lexicographic by character.

  /** `a` sorts strictly before `b`. */
  predicate Less(a: string, b: string) {
    |b| > 0 && (|a| == 0 || a[0] < b[0] || (a[0] == b[0] && Less(a[1..], b[1..])))
  }

  lemma {:induction false} LessIrreflexive(a: string)
    ensures !Less(a, a)
  {
    if |a| > 0 {
      LessIrreflexive(a[1..]);
    }
  }

  lemma {:induction false} LessTransitive(a: string, b: string, c: string)
    requires Less(a, b) && Less(b, c)
    ensures Less(a, c)
  {
    if |a| > 0 && a[0] == b[0] && b[0] == c[0] {
      LessTransitive(a[1..], b[1..], c[1..]);
    }
  }

  lemma {:induction false} LessTotal(a: string, b: string)
    requires a != b
    ensures Less(a, b) || Less(b, a)
  {
    if |a| > 0 && |b| > 0 && a[0] == b[0] {
      assert a == [a[0]] + a[1..] && b == [b[0]] + b[1..];
      LessTotal(a[1..], b[1..]);
    }
  }
}

=== FILE: user_rankings_view.dfy ===
/** One user's leaderboard page (`UserRankingsComponent`): the route
    parameters, what happens when the user's list arrives, and the
    exclude-set cuisine filter, which never hides an entry without a cuisine. */
module UserRankingsView {
  import opened Common
  import opened Seqs
  import opened Cuisines

  datatype UserRankingsState = UserRankingsState(
    rankings: seq<RankingItem>,
    allRankings: seq<RankingItem>,
    loading: bool,
    error: string,
    userId: string,
    username: string,
    showFilters: bool,
    availableCuisines: seq<string>,
    excludedCuisines: set<string>)

  const DefaultUsername := "Utente"
  const UserNotFoundMessage := "Utente non trovato"
  const LoadFailedMessage := "Errore nel caricamento delle recensioni dell'utente"

  function Initial(): UserRankingsState {
    UserRankingsState([], [], true, "", "", "", false, [], {})
  }

  /** Whether the page shows entry `e` while the chips `excluded` are switched off. */
  predicate Kept(excluded: set<string>, e: RankingItem) {
    !HasCuisine(e) || e.cuisine.value !in excluded
  }

  /** What happens on a route change: with a user id in the route the page
      records the id and the name (defaulting to "Utente"), shows the spinner
      and asks for that user's leaderboard; without one it does nothing. */
  function OnRouteParams(st: UserRankingsState, userId: Option<string>, username: Option<string>)
    : (res: (UserRankingsState, Option<string>))
    ensures Truthy(userId) ==> res.1 == userId && res.0.userId == userId.value
    ensures Truthy(userId) && Truthy(username) ==> res.0.username == username.value
    ensures Truthy(userId) && !Truthy(username) ==> res.0.username == DefaultUsername
    ensures Truthy(userId) ==> res.0.loading
    ensures Truthy(userId) ==> res.0 == st.(userId := res.0.userId, username := res.0.username, loading := true)
    ensures !Truthy(userId) ==> res.1.None? && res.0 == st
  {
    if Truthy(userId) then
      (st.(userId := userId.value, username := OrElse(username, DefaultUsername), loading := true), Some(userId.value))
    else
      (st, None)
  }

  /** `Kept` for fixed chips, as the predicate handed to `filter`. */
  function KeptBy(excluded: set<string>): RankingItem -> bool {
    e => Kept(excluded, e)
  }

  /** `shown` is what the page lists for the entries `all` while `excluded`
      is switched off: the kept entries, in order, each as often as in `all`. */
  ghost predicate FilteredFrom(shown: seq<RankingItem>, all: seq<RankingItem>, excluded: set<string>) {
    && IsSubsequence(shown, all)
    && (forall i :: 0 <= i < |shown| ==> Kept(excluded, shown[i]))
    && |shown| == CountWhere(all, KeptBy(excluded))
    && (forall i :: 0 <= i < |all| && Kept(excluded, all[i]) ==> all[i] in shown)
  }

  /** For given entries and exclusions only one list is `FilteredFrom` them. */
  lemma {:induction false} FilteredFromUnique(shown: seq<RankingItem>, all: seq<RankingItem>, excluded: set<string>)
    requires FilteredFrom(shown, all, excluded)
    ensures shown == Filter(all, KeptBy(excluded))
  {
    FilterUnique(shown, all, KeptBy(excluded));
  }

  /** `applyFilters`: drop the entries whose cuisine is switched off. */
  function ApplyFilters(st: UserRankingsState): (st': UserRankingsState)
    ensures FilteredFrom(st'.rankings, st.allRankings, st.excludedCuisines)
    ensures st' == st.(rankings := st'.rankings)
  {
    st.(rankings := Filter(st.allRankings, KeptBy(st.excludedCuisines)))
  }

  /** An entry without a cuisine is always shown. */
  lemma NoCuisineAlwaysShown(st: UserRankingsState, e: RankingItem)
    requires e in st.allRankings
    requires !HasCuisine(e)
    ensures e in ApplyFilters(st).rankings
  {
  }

  /** An entry with a cuisine is shown exactly when that cuisine is not switched off. */
  lemma CuisineShownIffNotExcluded(st: UserRankingsState, e: RankingItem)
    requires e in st.allRankings
    requires HasCuisine(e)
    ensures e in ApplyFilters(st).rankings <==> e.cuisine.value !in st.excludedCuisines
  {
    var shown := ApplyFilters(st).rankings;
    if e in shown {
      var i :| 0 <= i < |shown| && shown[i] == e;
    }
  }

  /** With nothing switched off the page shows the whole list, in its order. */
  lemma NothingExcludedShowsAll(st: UserRankingsState)
    requires st.excludedCuisines == {}
    ensures ApplyFilters(st).rankings == st.allRankings
  {
    FilterKeepsAll(st.allRankings, KeptBy(st.excludedCuisines));
  }

  /** `toggleCuisine`: switch one cuisine on or off and filter again. */
  function ToggleCuisine(st: UserRankingsState, cuisine: string): (st': UserRankingsState)
    ensures cuisine in st'.excludedCuisines <==> cuisine !in st.excludedCuisines
    ensures forall c :: c != cuisine ==> (c in st'.excludedCuisines <==> c in st.excludedCuisines)
    ensures FilteredFrom(st'.rankings, st.allRankings, st'.excludedCuisines)
    ensures st' == st.(excludedCuisines := st'.excludedCuisines, rankings := st'.rankings)
  {
    ApplyFilters(st.(excludedCuisines := Toggle(st.excludedCuisines, cuisine)))
  }

  /** `isCuisineExcluded`. */
  predicate IsCuisineExcluded(st: UserRankingsState, cuisine: string) {
    cuisine in st.excludedCuisines
  }

  /** After a toggle the chip reads the opposite way, and the other chips read as before. */
  lemma ToggleFlipsExcluded(st: UserRankingsState, cuisine: string, other: string)
    requires other != cuisine
    ensures IsCuisineExcluded(ToggleCuisine(st, cuisine), cuisine) <==> !IsCuisineExcluded(st, cuisine)
    ensures IsCuisineExcluded(ToggleCuisine(st, cuisine), other) <==> IsCuisineExcluded(st, other)
  {
  }

  function ToggleFilters(st: UserRankingsState): (st': UserRankingsState)
    ensures st'.showFilters != st.showFilters
    ensures st' == st.(showFilters := st'.showFilters)
  {
    st.(showFilters := !st.showFilters)
  }

  /** The success branch of `loadUserRankings`. */
  function OnUserRankingsLoaded(st: UserRankingsState, response: seq<RankingItem>): (st': UserRankingsState)
    ensures st'.allRankings == response
    ensures StrictlySorted(st'.availableCuisines)
    ensures forall c :: c in st'.availableCuisines <==> c in NamedCuisines(response)
    ensures FilteredFrom(st'.rankings, response, st.excludedCuisines)
    ensures !st'.loading
    ensures st'.excludedCuisines == st.excludedCuisines
    ensures st' == st.(allRankings := response, rankings := st'.rankings,
                       availableCuisines := st'.availableCuisines, loading := false)
  {
    var st1 := st.(allRankings := response, availableCuisines := CuisineList(response));
    ApplyFilters(st1).(loading := false)
  }

  /** The error branch of `loadUserRankings`: a 404 means the user does not exist. */
  function OnUserRankingsError(st: UserRankingsState, status: int): (st': UserRankingsState)
    ensures st'.error == (if status == 404 then UserNotFoundMessage else LoadFailedMessage)
    ensures !st'.loading
    ensures st' == st.(error := st'.error, loading := false)
  {
    var message := if status == 404 then UserNotFoundMessage else LoadFailedMessage;
    st.(error := message, loading := false)
  }
}

=== FILE: users_panel.dfy ===
/** The superadmin's user list (`UsersComponent`): one password box and one
    feedback line per user, kept in maps keyed by user id, and the password
    reset it sends for one user at a time. */
module UsersPanel {
  import opened Common
  import opened Text

  const MinPasswordLength: nat := 6
  const ShortPasswordMessage := "La password deve avere almeno 6 caratteri."
  const UpdatedMessage := "Password aggiornata"
  const UpdateFailedMessage := "Errore nell'aggiornamento della password"

  datatype FeedbackKind = Success | Error

  datatype Feedback = Feedback(kind: FeedbackKind, message: string)

  datatype UsersPanelState = UsersPanelState(
    savingId: Option<string>,
    passwordInputs: map<string, string>,
    feedback: map<string, Feedback>)

  /** A password-reset request: the user and the new password. */
  datatype PasswordUpdate = PasswordUpdate(userId: string, password: string)

  /** `setFeedback`: replace the feedback line of one user. */
  function SetFeedback(st: UsersPanelState, userId: string, kind: FeedbackKind, message: string)
    : (st': UsersPanelState)
    ensures userId in st'.feedback && st'.feedback[userId] == Feedback(kind, message)
    ensures st'.feedback.Keys == st.feedback.Keys + {userId}
    ensures forall u :: u in st.feedback && u != userId ==> st'.feedback[u] == st.feedback[u]
    ensures st'.savingId == st.savingId && st'.passwordInputs == st.passwordInputs
  {
    st.(feedback := st.feedback[userId := Feedback(kind, message)])
  }

  /** `onPasswordInput`: record what was typed for one user and drop that user's feedback. */
  function OnPasswordInput(st: UsersPanelState, userId: string, value: string): (st': UsersPanelState)
    ensures userId in st'.passwordInputs && st'.passwordInputs[userId] == value
    ensures st'.passwordInputs.Keys == st.passwordInputs.Keys + {userId}
    ensures forall u :: u in st.passwordInputs && u != userId ==>
      st'.passwordInputs[u] == st.passwordInputs[u]
    ensures st'.feedback.Keys == st.feedback.Keys - {userId}
    ensures forall u :: u in st'.feedback ==> st'.feedback[u] == st.feedback[u]
    ensures st'.savingId == st.savingId
  {
    st.(passwordInputs := st.passwordInputs[userId := value], feedback := st.feedback - {userId})
  }

  /** The password typed for a user, trimmed (`(inputs[id] || '').trim()`). */
  function TypedPassword(st: UsersPanelState, userId: string): string {
    Trim(if userId in st.passwordInputs then st.passwordInputs[userId] else "")
  }

  /** `updatePassword` up to the request: a trimmed password shorter than six
      characters only sets an error line; otherwise the user is marked as
      saving and the trimmed password is sent. */
  function UpdatePassword(st: UsersPanelState, userId: string)
    : (res: (UsersPanelState, Option<PasswordUpdate>))
    ensures |TypedPassword(st, userId)| < MinPasswordLength ==>
      res == (SetFeedback(st, userId, Error, ShortPasswordMessage), None)
    ensures |TypedPassword(st, userId)| >= MinPasswordLength ==>
      && res.1 == Some(PasswordUpdate(userId, TypedPassword(st, userId)))
      && res.0 == st.(savingId := Some(userId))
    ensures res.1.Some? ==>
      |res.1.value.password| >= MinPasswordLength && IsTrimmed(res.1.value.password)
  {
    var pwd := TypedPassword(st, userId);
    if |pwd| < MinPasswordLength then
      (SetFeedback(st, userId, Error, ShortPasswordMessage), None)
    else
      (st.(savingId := Some(userId)), Some(PasswordUpdate(userId, pwd)))
  }

  /** The success branch: a success line, the box emptied, nothing saving. */
  function OnUpdateSuccess(st: UsersPanelState, userId: string, serverMessage: Option<string>)
    : (st': UsersPanelState)
    ensures userId in st'.feedback && st'.feedback[userId].kind == Success
    ensures Truthy(serverMessage) ==> st'.feedback[userId].message == serverMessage.value
    ensures !Truthy(serverMessage) ==> st'.feedback[userId].message == UpdatedMessage
    ensures userId in st'.passwordInputs && st'.passwordInputs[userId] == ""
    ensures forall u :: u in st.passwordInputs && u != userId ==>
      u in st'.passwordInputs && st'.passwordInputs[u] == st.passwordInputs[u]
    ensures forall u :: u in st.feedback && u != userId ==>
      u in st'.feedback && st'.feedback[u] == st.feedback[u]
    ensures st'.savingId.None?
    ensures st'.feedback.Keys == st.feedback.Keys + {userId}
    ensures st'.passwordInputs.Keys == st.passwordInputs.Keys + {userId}
    ensures st' == st.(feedback := st'.feedback, passwordInputs := st'.passwordInputs, savingId := None)
  {
    var st1 := SetFeedback(st, userId, Success, OrElse(serverMessage, UpdatedMessage));
    st1.(passwordInputs := st1.passwordInputs[userId := ""], savingId := None)
  }

  /** The error branch: an error line and nothing saving; the typed password stays. */
  function OnUpdateError(st: UsersPanelState, userId: string, serverMessage: Option<string>)
    : (st': UsersPanelState)
    ensures userId in st'.feedback && st'.feedback[userId].kind == Error
    ensures Truthy(serverMessage) ==> st'.feedback[userId].message == serverMessage.value
    ensures !Truthy(serverMessage) ==> st'.feedback[userId].message == UpdateFailedMessage
    ensures st'.passwordInputs == st.passwordInputs
    ensures forall u :: u in st.feedback && u != userId ==>
      u in st'.feedback && st'.feedback[u] == st.feedback[u]
    ensures st'.savingId.None?
    ensures st'.feedback.Keys == st.feedback.Keys + {userId}
    ensures st' == st.(feedback := st'.feedback, savingId := None)
  {
    SetFeedback(st, userId, Error, OrElse(serverMessage, UpdateFailedMessage)).(savingId := None)
  }
}
